=== FILE: README.md ===
# Trophy widgets: the derivation layer

The trophy registry is a set of React widgets for gamified products:
achievement badges, progress and grids, leaderboards and podiums, a user's
rank card, points displays and floating point animations, and streak
badges, calendars, freeze indicators and at-risk banners. Each widget takes
plain records from the trophy API (achievements, rankings, points, streaks)
and derives what it shows from them: which items appear and in what order,
which medal a rank earns, how full a progress bar is, which days of a month
are active, how long a streak has left, what the accessible label says.

This project models that derivation layer as pure Dafny functions and
proves what each widget promises about it. Markup, styling, icons and
animation are not modelled; where a widget renders, the model returns a
datatype that names what is rendered (`Board`, `GridView`, `BadgeView`,
`FreezeView`, `Alert`, ...).

Modules:

- `Prelude` — `Option`, JavaScript truthiness, `||` on strings,
  `Array.prototype.slice` with negative indices, `IsSubsequence`.
- `Text` — decimal rendering and parsing, zero-padded fields, and the
  code-point string order used for JavaScript's relational operators.
- `Dates` — proleptic Gregorian dates, day numbers, weekdays and the
  `YYYY-MM-DD` text with its round trips.
- `Streaks`, `StreakBadge`, `StreakFreezeIndicator`, `StreakCalendar`,
  `StreakAtRisk` — the streak widgets.
- `Achievements`, `AchievementGrid` — the achievement badge, progress and grid.
- `Rankings`, `Leaderboard`, `LeaderboardEntry`, `LeaderboardPodium`,
  `UserRank` — the leaderboard widgets.
- `PointsDisplay`, `PointsAnimation` — the points widgets and the
  animation queue hook.

Conventions. JavaScript numbers are modelled as `int` where the widgets only
hold integers (counts, ranks, points, milliseconds) and as `real` for the
progress percentage. `Math.round` is half up (`floor(x + 0.5)`), JavaScript's
`%` keeps the dividend's sign, and `a ?? b`, `a || b` and `a ? x : y` on
numbers are modelled with `Option` and `Truthy`. The current time is a
parameter. `localeCompare` and JavaScript's relational operators on strings are modelled as code-point order (see Left out).

The podium's `rankings` prop is documented as the top three rankings
(leaderboard-podium.tsx:67), and the code relies on that: it keeps only the
first three entries of the list and looks among those three for ranks 2, 1
and 3. A longer list whose rank-1 entry is listed fourth therefore shows no
first place (`LeaderboardPodium.LateLeaderIsMissed`), and the podium's
"no configuration for this rank" branch can never be taken because every
entry it receives has rank 1, 2 or 3 (`LeaderboardPodium.Podium`).

Two widgets put a number on the left of a JSX `&&`, and React prints a
numeric 0 as text: a leaderboard with a limit of 0 ends with a stray "0",
and a rank card with 0 participants shows "0" on its right. The model
records this in `Leaderboard.Board.strayZero` and
`UserRank.Summary.strayZero` (see Findings).

## Model

| member | source | states |
|---|---|---|
| Text.FixedOfParse | apps/www/registry/trophy/ui/streak-calendar.tsx:21 | every fixed-width digit field is the zero-padded rendering of its value |
| Text.CompareFlip | apps/www/registry/trophy/ui/achievement-grid.tsx:118-122 | the string order is antisymmetric: swapping the operands negates the comparison |
| Text.LeTransitive | apps/www/registry/trophy/ui/achievement-grid.tsx:118-122 | the string order is transitive, so sorting by it is well defined |
| Text.SplitNumber | apps/www/registry/trophy/ui/streak-at-risk.tsx:35-41 | a leading numeral is split off iff the text starts with a digit, as a maximal digit run and the rest |
| Text.SplitNumberOfNumeral | apps/www/registry/trophy/ui/streak-at-risk.tsx:35-41 | a rendered number followed by a non-digit splits back into that number and the text after it |
| Dates.DaysInMonth | apps/www/registry/trophy/ui/streak-calendar.tsx:46-48 | a month has 28 to 31 days; February has 29 exactly in leap years; April, June, September and November have 30 |
| Dates.FirstOfNextMonth | apps/www/registry/trophy/ui/streak-calendar.tsx:46-48 | the 1st of the next month is exactly the month's length in days after this month's 1st |
| Dates.EpochAnchor | apps/www/registry/trophy/ui/streak-calendar.tsx:51-53 | the day numbering puts 1970-01-01 at day 0, a Thursday (weekday 4) |
| Dates.IsoDateOrder | apps/www/registry/trophy/ui/streak-calendar.tsx:20-23 | comparing two `YYYY-MM-DD` strings as strings is comparing the dates they name |
| Dates.ParseIsoDateOfIsoDate | apps/www/registry/trophy/ui/streak-at-risk.tsx:21 | reading back the ISO text of a date gives the date |
| Dates.IsoDateOfParseIsoDate | apps/www/registry/trophy/ui/streak-at-risk.tsx:21 | a string that reads as a date is exactly that date's ISO text |
| StreakBadge.StreakLength | apps/www/registry/trophy/ui/streak-badge.tsx:91 | the streak's length, else the `length` prop, else 0 |
| StreakBadge.BadgeFrequency | apps/www/registry/trophy/ui/streak-badge.tsx:92 | the streak's frequency, else daily |
| StreakBadge.PluralLabel | apps/www/registry/trophy/ui/streak-badge.tsx:100-101 | the unit is singular for a length of exactly 1 and plural otherwise, including 0 and negatives |
| StreakBadge.LabelsDetermineUnitAndNumber | apps/www/registry/trophy/ui/streak-badge.tsx:94-101 | equal labels have the same frequency and agree on whether the length is 1 |
| StreakFreezeIndicator.Freezes | apps/www/registry/trophy/ui/streak-freeze-indicator.tsx:88 | the streak's freeze count, else the prop, else 0 |
| StreakFreezeIndicator.MaxFreezes | apps/www/registry/trophy/ui/streak-freeze-indicator.tsx:89 | the streak's maximum, else the prop, else the freeze count itself |
| StreakFreezeIndicator.Indicators | apps/www/registry/trophy/ui/streak-freeze-indicator.tsx:132-134 | one indicator per possible freeze (none for a negative maximum), the i-th filled iff i is below the freeze count |
| StreakFreezeIndicator.FilledCount | apps/www/registry/trophy/ui/streak-freeze-indicator.tsx:132-134 | the number of filled indicators is min(freezes, maximum), and 0 when either is negative |
| StreakFreezeIndicator.View | apps/www/registry/trophy/ui/streak-freeze-indicator.tsx:88-134 | the widget renders nothing exactly when the resolved maximum is 0; otherwise, for the dots and snowflakes variants, the indicator row for the resolved counts and their label |
| StreakFreezeIndicator.AriaLabel | apps/www/registry/trophy/ui/streak-freeze-indicator.tsx:108 | the label ends in " streak freeze available" exactly when the maximum is 1 |
| StreakFreezeIndicator.ParseAriaLabel | apps/www/registry/trophy/ui/streak-freeze-indicator.tsx:108 | reads the two counts back from a label whose unit agrees with the maximum; only text starting with a digit reads as one |
| StreakFreezeIndicator.AriaLabelRoundTrip | apps/www/registry/trophy/ui/streak-freeze-indicator.tsx:108 | for non-negative counts the label reads back as exactly the freeze count and the maximum |
| StreakFreezeIndicator.CountAloneFillsEverything | apps/www/registry/trophy/ui/streak-freeze-indicator.tsx:88-94 | with only a freeze count, that many indicators are shown and all are filled; a count of 0 hides the widget |
| StreakCalendar.InPeriodIsDateRange | apps/www/registry/trophy/ui/streak-calendar.tsx:20-23 | for ISO-date bounds, a day is in a period iff it lies between start and end inclusive in calendar order |
| StreakCalendar.MarchExample | apps/www/registry/trophy/ui/streak-calendar.tsx:20-23 | a day of March 2024 lies in the period from 2024-03-05 to 2024-03-08 iff it is the 5th to the 8th |
| StreakCalendar.WasDateActive | apps/www/registry/trophy/ui/streak-calendar.tsx:36-43 | a day is active iff some period of the history contains it |
| StreakCalendar.DidUseFreezeOnDate | apps/www/registry/trophy/ui/streak-calendar.tsx:26-33 | a freeze was used on a day iff some period containing it used a freeze; such a day is active |
| StreakCalendar.DaysInMonth | apps/www/registry/trophy/ui/streak-calendar.tsx:46-48 | the length of the month with 0-based index `monthIndex` is the calendar month length of month `monthIndex + 1`, between 28 and 31 |
| StreakCalendar.FirstDayOfMonth | apps/www/registry/trophy/ui/streak-calendar.tsx:51-53 | the column of the 1st is the weekday (0 = Sunday) of the 1st of month `monthIndex + 1` |
| StreakCalendar.LeadingBlanks | apps/www/registry/trophy/ui/streak-calendar.tsx:91-94 | the blanks before the 1st are its weekday for a Sunday start, and one fewer modulo 7 for a Monday start |
| StreakCalendar.DayLandsInItsWeekdayColumn | apps/www/registry/trophy/ui/streak-calendar.tsx:91-113 | every day of the month falls in the grid column of its own weekday, for both week starts |
| StreakCalendar.NextMonthContinues | apps/www/registry/trophy/ui/streak-calendar.tsx:86-94 | the next month's grid starts in the column right after this month's last day, across a year end too |
| StreakCalendar.BuildGrid | apps/www/registry/trophy/ui/streak-calendar.tsx:103-113 | the day list is the leading blanks followed by the days 1 to the month's length, in order |
| StreakCalendar.Layout | apps/www/registry/trophy/ui/streak-calendar.tsx:103-113 | the two loops produce `blanks` empty entries and then the numbers 1 to `n`, and nothing more |
| StreakCalendar.Status | apps/www/registry/trophy/ui/streak-calendar.tsx:164-170 | the status is freeze used, else streak active, else future, else no activity, each exactly when the earlier ones do not apply |
| StreakCalendar.CellFor | apps/www/registry/trophy/ui/streak-calendar.tsx:151-170 | a cell is today iff its date equals today and future iff it is later; active iff some period covers it; shows a freeze iff freezes are shown and a covering period used one; its status is the one `Status` ranks from those three facts, so a future day is disabled |
| StreakCalendar.CellAgainstToday | apps/www/registry/trophy/ui/streak-calendar.tsx:151-170 | a day without history is marked today and enabled when it is today, disabled as a future day when later, and an enabled day without activity when earlier |
| StreakCalendar.BuildCalendar | apps/www/registry/trophy/ui/streak-calendar.tsx:146-156 | the rendered grid has one position per leading blank and per day of the month; a position before the 1st is empty and every later one holds the cell of the day it stands for |
| StreakCalendar.CalendarPlacesEachDay | apps/www/registry/trophy/ui/streak-calendar.tsx:146-156 | each day of the month has its cell at position blanks + day - 1, and every position before the 1st is empty |
| StreakAtRisk.DeadlineIsLastSecond | apps/www/registry/trophy/ui/streak-at-risk.tsx:21 | the deadline is 23:59:59 on the expiry date, one second before the next day begins |
| StreakAtRisk.TimeRemainingMs | apps/www/registry/trophy/ui/streak-at-risk.tsx:17-26 | no time for a missing or empty expiry; otherwise a non-negative amount, 0 for an unreadable date, else the deadline minus now clamped at 0 |
| StreakAtRisk.RemainingForIsoExpiry | apps/www/registry/trophy/ui/streak-at-risk.tsx:17-26 | for an expiry that is a date's ISO text, the remaining time is the deadline minus now, clamped at 0 |
| StreakAtRisk.Assess | apps/www/registry/trophy/ui/streak-at-risk.tsx:124-135 | hidden iff dismissed, without remaining time, with none left or beyond the warning window; critical iff within the critical hours |
| StreakAtRisk.NoExpiryNeverAtRisk | apps/www/registry/trophy/ui/streak-at-risk.tsx:124-127 | a streak without an expiry never shows the banner |
| StreakAtRisk.ExpiredIsHidden | apps/www/registry/trophy/ui/streak-at-risk.tsx:124-127 | once the expiry date's last second has passed, the banner is hidden |
| StreakAtRisk.RiskEscalates | apps/www/registry/trophy/ui/streak-at-risk.tsx:129-135 | as time advances towards the deadline the banner only escalates: hidden, then warning, then critical |
| StreakAtRisk.JsRemainder | apps/www/registry/trophy/ui/streak-at-risk.tsx:29-41 | JavaScript's remainder agrees with the mathematical one on non-negative dividends and stays strictly within the divisor |
| StreakAtRisk.CountdownOf | apps/www/registry/trophy/ui/streak-at-risk.tsx:29-41 | days and hours from 25 hours up, minutes alone under an hour, hours and minutes in between, each the whole units of the duration |
| StreakAtRisk.TwentyFourHoursBoundary | apps/www/registry/trophy/ui/streak-at-risk.tsx:33-35 | exactly 24 hours and up to 24h 59m are still written in hours and minutes; 25 hours is 1d 1h |
| StreakAtRisk.FormatExamples | apps/www/registry/trophy/ui/streak-at-risk.tsx:29-41 | 90 minutes reads "1h 30m", 30 hours "1d 6h", 45 minutes "45m", nothing "0m" |
| StreakAtRisk.ParseCountdown | apps/www/registry/trophy/ui/streak-at-risk.tsx:29-41 | reads a countdown back from its text; only text starting with a digit reads as one |
| StreakAtRisk.CountdownTextRoundTrip | apps/www/registry/trophy/ui/streak-at-risk.tsx:29-41 | for every non-negative duration the text reads back as exactly the days and hours, hours and minutes, or minutes `CountdownOf` computed |
| StreakAtRisk.TwoPartText | apps/www/registry/trophy/ui/streak-at-risk.tsx:34-39 | a `{days}d {hours}h` or `{hours}h {minutes}m` text reads back as its two numbers |
| Achievements.Target | apps/www/registry/trophy/ui/achievement-progress.tsx:94 | the target is the metric value, or 0 without one |
| Achievements.Progress | apps/www/registry/trophy/ui/achievement-progress.tsx:95-96 | 0 without a positive target; otherwise within 0..100 for a non-negative value, 100 exactly when the value reaches the target, and proportional below it |
| Achievements.ProgressMonotone | apps/www/registry/trophy/ui/achievement-progress.tsx:95-96 | more progress towards the same target never shows a smaller percentage |
| Achievements.ReachedTargetIsFullAndComplete | apps/www/registry/trophy/ui/achievement-progress.tsx:95-97 | reaching a positive target shows 100 percent and counts as complete |
| Achievements.NoTargetIsCompleteButEmpty | apps/www/registry/trophy/ui/achievement-progress.tsx:94-97 | without a positive target the bar shows 0 percent yet any non-negative value counts as complete |
| Achievements.ShownPercentage | apps/www/registry/trophy/ui/achievement-progress.tsx:151 | the rounded percentage lies within 0..100 and is within one half of the exact one |
| Achievements.RoundedHundredIsNotCompletion | apps/www/registry/trophy/ui/achievement-progress.tsx:151 | 199 of 200 is displayed as 100 percent although it is not complete |
| Achievements.ProgressOf | apps/www/registry/trophy/ui/achievement-progress.tsx:94-97 | the target is the metric value or 0; the bar is `Progress` of the value and target; complete iff the value reaches the target; within 0..100 for a non-negative value, 100 when complete with a positive target, 0 without a positive target |
| Achievements.FullBarIffComplete | apps/www/registry/trophy/ui/achievement-progress.tsx:94-97 | with a positive target the bar is full exactly when the achievement is complete |
| Achievements.ProgressSuffix | apps/www/registry/trophy/ui/achievement-badge.tsx:108-111 | the progress part is ", {current} of {target} progress" iff progress is asked for, the trigger is a metric and the achievement is locked, and empty otherwise |
| Achievements.Badge | apps/www/registry/trophy/ui/achievement-badge.tsx:95-112 | nothing is rendered iff locked with the hidden style; the label is the name, the status and the progress part; the bar, shown iff the progress part is, holds the progress of the current value towards the target; the lock icon iff locked and asked for |
| Achievements.ReachedBadgeShowsFullBar | apps/www/registry/trophy/ui/achievement-badge.tsx:95-112 | a locked metric badge whose value has reached a positive target shows a full bar and the label ", {current} of {target} progress" |
| Achievements.BadgeLabelShape | apps/www/registry/trophy/ui/achievement-badge.tsx:106-112 | the label starts with the name and Unlocked or Locked; with no progress part that is the whole label |
| Achievements.DefaultCurrentShowsNoProgress | apps/www/registry/trophy/ui/achievement-badge.tsx:86-99 | with the default current value of 0 the bar of a locked metric badge is empty |
| AchievementGrid.KeepWhereMembers | apps/www/registry/trophy/ui/achievement-grid.tsx:93-96 | an achievement is kept iff it is in the input with the wanted unlocked state |
| AchievementGrid.KeepWhereKeepsOrder | apps/www/registry/trophy/ui/achievement-grid.tsx:93-96 | the filtered list is a subsequence of the input |
| AchievementGrid.KeepWherePartition | apps/www/registry/trophy/ui/achievement-grid.tsx:93-96 | the earned and the locked lists together are a permutation of the input |
| AchievementGrid.ApplyFilter | apps/www/registry/trophy/ui/achievement-grid.tsx:91-100 | earned keeps the unlocked, locked keeps the locked, all keeps everything |
| AchievementGrid.CmpFlip | apps/www/registry/trophy/ui/achievement-grid.tsx:103-124 | each sort comparator is antisymmetric |
| AchievementGrid.CmpTransitive | apps/www/registry/trophy/ui/achievement-grid.tsx:103-124 | each sort comparator is transitive |
| AchievementGrid.SortBy | apps/www/registry/trophy/ui/achievement-grid.tsx:104 | sorting returns a permutation of the input |
| AchievementGrid.SortBySorted | apps/www/registry/trophy/ui/achievement-grid.tsx:103-124 | the sorted list is ordered by the comparator |
| AchievementGrid.SortByStable | apps/www/registry/trophy/ui/achievement-grid.tsx:103-124 | items the comparator ties keep their input order |
| AchievementGrid.SortByIdempotent | apps/www/registry/trophy/ui/achievement-grid.tsx:103-124 | sorting a sorted list changes nothing |
| AchievementGrid.NamesAscend | apps/www/registry/trophy/ui/achievement-grid.tsx:120-122 | sorted by name, names never descend |
| AchievementGrid.TriggersAscend | apps/www/registry/trophy/ui/achievement-grid.tsx:118-119 | sorted by trigger, trigger names never descend |
| AchievementGrid.EarnedFirstMostRecentFirst | apps/www/registry/trophy/ui/achievement-grid.tsx:107-116 | sorted by earned, an item before an unlocked one is itself unlocked and not unlocked earlier |
| AchievementGrid.LockedKeepOrder | apps/www/registry/trophy/ui/achievement-grid.tsx:115-116 | sorted by earned, the locked items keep their input order |
| AchievementGrid.EmptyText | apps/www/registry/trophy/ui/achievement-grid.tsx:127-139 | each filter has its own empty message |
| AchievementGrid.Unskipped | apps/www/registry/trophy/ui/achievement-grid.tsx:166-171 | the shown items are a subsequence of the list and keep every copy of each item that is not skipped and none of the skipped ones; under the hidden style they are the unlocked items, otherwise the whole list |
| AchievementGrid.KeepWhereCounts | apps/www/registry/trophy/ui/achievement-grid.tsx:93-96 | keeping the unlocked items keeps each one as many times as the input holds it, and no locked item |
| AchievementGrid.UnskippedSorted | apps/www/registry/trophy/ui/achievement-grid.tsx:103-171 | skipping hidden locked items keeps a sorted list sorted |
| AchievementGrid.KeepWhereSorted | apps/www/registry/trophy/ui/achievement-grid.tsx:166-171 | keeping the items with a given unlocked state keeps a sorted list sorted |
| AchievementGrid.Grid | apps/www/registry/trophy/ui/achievement-grid.tsx:127-171 | the custom empty state or the message iff the filtered list is empty; otherwise the shown items are sorted by the chosen key and a subsequence of the sorted filtered list, all of it unless locked items are hidden, and each item appears as often as in the filtered list unless it is skipped, then not at all |
| AchievementGrid.EmptyMessageIsTrue | apps/www/registry/trophy/ui/achievement-grid.tsx:127-139 | the earned message appears only when nothing is unlocked, the locked message only when everything is |
| AchievementGrid.HiddenLockedShowsBlankGrid | apps/www/registry/trophy/ui/achievement-grid.tsx:127-171 | the locked filter with the hidden style and some locked items renders a grid with no items and no message |
| AchievementGrid.ItemLabel | apps/www/registry/trophy/ui/achievement-grid.tsx:173-174 | the label is "{name} - Earned" for an unlocked achievement and "{name} - Locked" otherwise |
| Rankings.DisplayName | apps/www/registry/trophy/ui/leaderboard.tsx:134-135 | the name is never empty: the user name when non-empty, else "User " and the first six characters of the id |
| Rankings.FallbackSharesPrefix | apps/www/registry/trophy/ui/leaderboard.tsx:134-135 | unnamed users whose ids share the first six characters get the same name |
| Rankings.RankMedal | apps/www/registry/trophy/ui/leaderboard.tsx:45-56 | a medal exactly for ranks 1 to 3, the crown exactly for rank 1 |
| Rankings.MedalDeterminesRank | apps/www/registry/trophy/ui/user-rank.tsx:43-54 | the medal identifies the rank |
| Leaderboard.Source | apps/www/registry/trophy/ui/leaderboard.tsx:101 | the leaderboard's rankings, else the prop, else none |
| Leaderboard.DisplayRankings | apps/www/registry/trophy/ui/leaderboard.tsx:102 | the shown rows are a prefix of the rankings; all of them without a limit or with 0; min(limit, count) for a positive limit |
| Leaderboard.MoreCount | apps/www/registry/trophy/ui/leaderboard.tsx:213-217 | the "+N more" line appears iff the limit is truthy and the list is longer than it, with N the count minus the limit: the number cut off when the limit is positive |
| Leaderboard.ShownPlusMoreIsAll | apps/www/registry/trophy/ui/leaderboard.tsx:102-217 | shown rows plus the cut-off count is the whole list, and nothing is cut iff all rows are shown |
| Leaderboard.RowFor | apps/www/registry/trophy/ui/leaderboard.tsx:132-135 | a row marks the current user iff ids match and shows `#rank` iff the rank has no medal |
| Leaderboard.Render | apps/www/registry/trophy/ui/leaderboard.tsx:101-217 | rows iff some ranking is shown, each the row of its ranking in order with the cut-off count, and a stray "0" after them exactly when the limit is 0; otherwise the custom empty state iff given, else the message "No rankings yet" |
| Leaderboard.ZeroLimitShowsStrayZero | apps/www/registry/trophy/ui/leaderboard.tsx:213 | a limit of 0 shows every ranking and then prints a stray "0" |
| Leaderboard.RenderIntended | apps/www/registry/trophy/ui/leaderboard.tsx:101-217 | the board with the "more" line guarded by a positive limit: the same rows and empty states, never a stray "0", and a "more" line iff the limit is positive and exceeded, counting exactly the rankings not shown |
| Leaderboard.NegativeLimitMiscounts | apps/www/registry/trophy/ui/leaderboard.tsx:102-215 | with two rankings and a limit of -1, one row is shown and the "more" line reads "+3 more" |
| Leaderboard.OneCurrentUser | apps/www/registry/trophy/ui/leaderboard.tsx:132 | any two rows marked as the current user are the same user, so with distinct user ids at most one row is marked |
| LeaderboardEntry.ShowMedal | apps/www/registry/trophy/ui/leaderboard-entry.tsx:98 | the override when given, else whether the rank is at most 3 |
| LeaderboardEntry.EntryMedal | apps/www/registry/trophy/ui/leaderboard-entry.tsx:98-99 | a medal iff shown and the rank is 1 to 3, and then the shared rank medal |
| LeaderboardEntry.OverrideBounds | apps/www/registry/trophy/ui/leaderboard-entry.tsx:41-52 | forcing the medal on cannot medal rank 5; forcing it off removes rank 1's crown |
| LeaderboardEntry.DefaultMatchesBoard | apps/www/registry/trophy/ui/leaderboard-entry.tsx:98-99 | without an override the entry shows the same medal as the leaderboard |
| LeaderboardPodium.FindIndex | apps/www/registry/trophy/ui/leaderboard-podium.tsx:99-101 | the index found has the rank and no earlier entry has it; nothing iff no entry has it |
| LeaderboardPodium.Podium | apps/www/registry/trophy/ui/leaderboard-podium.tsx:96-102 | at most three entries, all among the first three rankings, with ranks 1..3, laid out second, first, third |
| LeaderboardPodium.OnPodiumIff | apps/www/registry/trophy/ui/leaderboard-podium.tsx:97-102 | a rank is on the podium iff it is 1, 2 or 3 and one of the first three entries has it |
| LeaderboardPodium.EntryIsFound | apps/www/registry/trophy/ui/leaderboard-podium.tsx:99-101 | every podium entry is what `find` returns for its rank among the first three |
| LeaderboardPodium.FirstMatchWins | apps/www/registry/trophy/ui/leaderboard-podium.tsx:99-101 | each podium entry is the first of the first three with its rank |
| LeaderboardPodium.EmptyPodium | apps/www/registry/trophy/ui/leaderboard-podium.tsx:104-106 | the podium renders nothing iff none of the first three entries has rank 1, 2 or 3 |
| LeaderboardPodium.LateLeaderIsMissed | apps/www/registry/trophy/ui/leaderboard-podium.tsx:97 | ranks 2, 3, 4, 1 in that order put only the first two on the podium |
| LeaderboardPodium.ItemLabel | apps/www/registry/trophy/ui/leaderboard-podium.tsx:146 | the label is "Rank {rank}: {display name}", followed by ", " and the formatted value iff values are shown |
| UserRank.TrendOrDefault | apps/www/registry/trophy/ui/user-rank.tsx:117 | the given trend, else same |
| UserRank.TrendLabel | apps/www/registry/trophy/ui/user-rank.tsx:57-85 | NEW, a dash, an arrow without a change, `+change` up and `-|change|` down |
| UserRank.DownIgnoresSign | apps/www/registry/trophy/ui/user-rank.tsx:66-70 | a drop reads the same whichever sign the change carries |
| UserRank.UpKeepsNegativeSign | apps/www/registry/trophy/ui/user-rank.tsx:60-64 | a rise with a negative change reads "+-3" |
| UserRank.Percentile | apps/www/registry/trophy/ui/user-rank.tsx:133-138 | defined iff the participant count is positive, and then the share of the field at or below the rank rounded half up |
| UserRank.PercentileBounds | apps/www/registry/trophy/ui/user-rank.tsx:133-138 | for a rank within the field the percentile is in 0..100, and first place gets 100 |
| UserRank.PercentileMonotone | apps/www/registry/trophy/ui/user-rank.tsx:133-138 | a better rank never gets a smaller percentile |
| UserRank.TopShareAsWritten | apps/www/registry/trophy/ui/user-rank.tsx:233 | the displayed share and the percentile add up to 101 |
| UserRank.TopShare | apps/www/registry/trophy/ui/user-rank.tsx:233 | the smallest whole percentage whose top slice of the field contains the rank |
| UserRank.TopShareEnds | apps/www/registry/trophy/ui/user-rank.tsx:233 | last place is always in the top 100 percent and first of a hundred in the top 1 percent |
| UserRank.TopShareAsWrittenIsOff | apps/www/registry/trophy/ui/user-rank.tsx:233 | for two participants the text reads "Top 51%" for last place and "Top 1%" for first place |
| UserRank.AsWrittenExactAtHundred | apps/www/registry/trophy/ui/user-rank.tsx:233 | for a field of exactly one hundred the text as written is the true share |
| UserRank.RightColumn | apps/www/registry/trophy/ui/user-rank.tsx:228-240 | the top line appears iff the percentile is asked for and defined, and reads "Top {100 - percentile + 1}%" as written; the total line iff the count is truthy; a stray "0" iff the count is 0 |
| UserRank.RightColumnIntended | apps/www/registry/trophy/ui/user-rank.tsx:228-240 | the same column with the smallest whole share of the field that contains the rank, the same total line, and never a stray "0" |
| UserRank.ZeroParticipantsShowsStrayZero | apps/www/registry/trophy/ui/user-rank.tsx:228-237 | with 0 participants the column as written holds only a stray "0", with or without the percentile; the intended column holds nothing |
| UserRank.RightColumnAsWrittenIsOff | apps/www/registry/trophy/ui/user-rank.tsx:233 | last of two participants reads "Top 51%" as written where "Top 100%" is meant |
| UserRank.RightColumnExactAtHundred | apps/www/registry/trophy/ui/user-rank.tsx:233 | for a field of exactly one hundred the column as written shows the intended share |
| UserRank.CardFor | apps/www/registry/trophy/ui/user-rank.tsx:117-122 | the badge is the shared rank medal, so present iff the rank is 1 to 3; the name is the shared display name; the trend label is the label of the given trend, same by default, and the rank change |
| UserRank.RisingLeaderCard | apps/www/registry/trophy/ui/user-rank.tsx:117-122 | first place rising by 2 shows the crown and "+2" |
| PointsDisplay.ChosenIcon | apps/www/registry/trophy/ui/points-display.tsx:115 | a custom icon wins; otherwise the icon mapped from the type |
| PointsDisplay.MappedIconInjective | apps/www/registry/trophy/ui/points-display.tsx:67-72 | distinct point types get distinct icons |
| PointsDisplay.DisplayValue | apps/www/registry/trophy/ui/points-display.tsx:116-118 | the custom formatter's text when given, else the locale formatting of the total |
| PointsDisplay.RecentAwards | apps/www/registry/trophy/ui/points-display.tsx:132-134 | no awards without a truthy count; otherwise the awards sliced to the count, a prefix of the list |
| PointsDisplay.StatusLabel | apps/www/registry/trophy/ui/points-display.tsx:132-136 | the label is the value, a space, the points name, then ", N recent award" with an "s" for more than one, where N is the number of awards shown, and nothing when none is |
| PointsDisplay.LabelOneAward | apps/www/registry/trophy/ui/points-display.tsx:132-136 | showing one award of a non-empty list ends the label with ", 1 recent award" |
| PointsDisplay.LabelCountsAwards | apps/www/registry/trophy/ui/points-display.tsx:136 | with more than one award shown, the label ends with their count and the plural "recent awards" |
| PointsDisplay.ChipFor | apps/www/registry/trophy/ui/points-display.tsx:190-203 | a chip shows `+awarded`, and the metric name iff the award has a non-empty one |
| PointsAnimation.SettingsOf | apps/www/registry/trophy/ui/points-animation.tsx:185 | the duration defaults to 1000 ms and the queue size to 10 |
| PointsAnimation.Trigger | apps/www/registry/trophy/ui/points-animation.tsx:188-201 | the returned id is the new item's; for a positive maximum the queue keeps the newest `maxItems - 1` old items followed by the new one; a maximum of 0 keeps every old item |
| PointsAnimation.RemoveMembers | apps/www/registry/trophy/ui/points-animation.tsx:203-205 | an item survives removal iff it was queued and has another id |
| PointsAnimation.RemoveCount | apps/www/registry/trophy/ui/points-animation.tsx:203-205 | removal drops exactly the items with that id |
| PointsAnimation.RemoveAbsent | apps/www/registry/trophy/ui/points-animation.tsx:203-205 | removing an id that is not queued changes nothing |
| PointsAnimation.RemoveIdempotent | apps/www/registry/trophy/ui/points-animation.tsx:203-205 | removing twice is removing once |
| PointsAnimation.RemoveCommutes | apps/www/registry/trophy/ui/points-animation.tsx:203-205 | removals of two ids commute |
| PointsAnimation.RemoveKeepsOrder | apps/www/registry/trophy/ui/points-animation.tsx:203-205 | the remaining items keep their order |
| PointsAnimation.TriggerThenRemove | apps/www/registry/trophy/ui/points-animation.tsx:188-205 | removing a freshly triggered item with a new id restores the queue, while the queue had room |
| PointsAnimation.Clear | apps/www/registry/trophy/ui/points-animation.tsx:207-209 | clearing empties the queue |
| PointsAnimation.TriggerAllIsWindow | apps/www/registry/trophy/ui/points-animation.tsx:194-197 | triggering items one by one keeps exactly the last `maxItems` of everything queued |
| PointsAnimation.TwelveIntoTen | apps/www/registry/trophy/ui/points-animation.tsx:185-197 | with the default size, twelve triggers leave the last ten |
| PointsAnimation.ZeroMaxKeepsAll | apps/www/registry/trophy/ui/points-animation.tsx:196 | a maximum of 0 caps nothing, because `slice(-0)` is the whole queue |
| PointsAnimation.DisplayText | apps/www/registry/trophy/ui/points-animation.tsx:94-95 | the default prefix is "+" and is dropped for negative values, which carry their own sign |
| PointsAnimation.DefaultTextRoundTrip | apps/www/registry/trophy/ui/points-animation.tsx:94-95 | with the defaults, a non-negative value's text is "+" and digits that read back as the value |

## Left out

- Markup, CSS classes, sizes, colours, icons as components, animation timings and the `visible` and `show` timers of the animation component: presentation only.
- React state, refs, effects and callbacks: the hook is modelled as pure functions from one queue to the next.
- The animation item id (`Date.now()` plus `Math.random()`): a parameter of `PointsAnimation.Trigger`, so uniqueness is the caller's assumption.
- The current time: a parameter everywhere (`now` in milliseconds, today's date in the calendar).
- Time zones: `new Date(expires + "T23:59:59")` and `new Date(year, month, day)` are read as local time on a day-number timeline without offsets or daylight-saving jumps; `toISOString` is read as the same calendar date.
- `new Date(year, month, day)` reads years 0 to 99 as 1900 to 1999; the calendar model takes the year literally, so it agrees with the source for years from 100 on.
- Years outside 0..9999 in ISO strings and JavaScript's invalid dates, apart from an unreadable expiry, which gives 0 ms remaining as NaN comparisons do in the source.
- `localeCompare`: modelled as code-point order, which agrees with it on ASCII names but not in general; the sort properties hold for any total order.
- Strings are sequences of Unicode code points, while JavaScript strings are UTF-16 code units: `<` on strings and `id.slice(0, 6)` in the display name agree with the model only for text without characters outside the Basic Multilingual Plane.
- Floating point: progress is exact rational arithmetic and `Math.round` is half up on exact values.
- `achievedAt`: an optional millisecond time; the source subtracts parsed date strings, and unparsable strings (NaN comparators) are not modelled.
- `toLocaleString` and `toLocaleDateString`: parameters (`localeFormat`) or left out of labels.
- How the trend and rank change are computed: the card receives them.
- The streak history is modelled as always present; the source's `?? []` for a missing history is not modelled.
- The trophy provider, the unlocked-achievement toast and the API client: not part of this model.
- The freeze indicator's text variant (streak-freeze-indicator.tsx:111-129), which shows the count and, with `showMax`, "/{maximum}" instead of the indicator row: presentation of the same two resolved counts, not modelled.
- PointsAnimation.Trigger: states nothing for a negative `maxItems`, where `slice(-maxItems)` drops leading items instead of keeping trailing ones; the body computes that case as the source does.

## Findings

| source | as written | input that shows it | evidently intended | confidence | as-written member | corrected member |
|---|---|---|---|---|---|---|
| apps/www/registry/trophy/ui/user-rank.tsx:233 | the card shows "Top {100 - percentile + 1}%" | 2 participants: rank 2 has percentile 50 and reads "Top 51%"; rank 1 has percentile 100 and reads "Top 1%" | the smallest share of the field that contains the rank: 100% for last of two, 50% for first of two | medium, not executed | UserRank.RightColumnAsWrittenIsOff | UserRank.RightColumnIntended |
| apps/www/registry/trophy/ui/leaderboard.tsx:213 | `{limit && rankings.length > limit && (…)}` | a limit of 0 with at least one ranking: the guard evaluates to the number 0, which React prints after the rows | no "more" line and no text for a limit of 0, as with `limit > 0 &&` | high, not executed | Leaderboard.ZeroLimitShowsStrayZero | Leaderboard.RenderIntended |
| apps/www/registry/trophy/ui/user-rank.tsx:228-237 | `(showPercentile \|\| totalParticipants) &&` and `{totalParticipants && (…)}` | 0 participants: either guard evaluates to the number 0, which React prints on the card | nothing on the right for 0 participants, as with `totalParticipants > 0 &&` | high, not executed | UserRank.ZeroParticipantsShowsStrayZero | UserRank.RightColumnIntended |
| apps/www/registry/trophy/ui/leaderboard.tsx:215 | `+{rankings.length - limit} more` after `rankings.slice(0, limit)` | two rankings and a limit of -1: `slice(0, -1)` shows one ranking, and the line reads "+3 more" | a "more" line only for a positive limit, counting the rankings not shown, as with `limit > 0 &&` | medium, not executed | Leaderboard.NegativeLimitMiscounts | Leaderboard.RenderIntended |

=== FILE: achievement_grid.dfy ===
/** The achievement grid: filter by unlock state, then a stable sort by name,
    by trigger or by unlock time, then the empty state or the items. */
module AchievementGrid {
  import opened Prelude
  import Text
  import opened Achievements

  datatype Filter = All | Earned | Locked

  /** The items whose unlock state is `unlocked`, in input order. */
  function KeepWhere(s: seq<UserAchievement>, unlocked: bool): (r: seq<UserAchievement>)
    ensures |r| <= |s|
  {
    if |s| == 0 then []
    else (if s[0].IsUnlocked() == unlocked then [s[0]] else []) + KeepWhere(s[1..], unlocked)
  }

  /** An item is kept iff it is in the input with the wanted state. */
  lemma {:induction false} KeepWhereMembers(s: seq<UserAchievement>, unlocked: bool)
    ensures forall x :: x in KeepWhere(s, unlocked) <==> x in s && x.IsUnlocked() == unlocked
  {
    if |s| > 0 {
      KeepWhereMembers(s[1..], unlocked);
      assert s == [s[0]] + s[1..];
    }
  }

  /** Keeping items never reorders them. */
  lemma {:induction false} KeepWhereKeepsOrder(s: seq<UserAchievement>, unlocked: bool)
    ensures IsSubsequence(KeepWhere(s, unlocked), s)
  {
    if |s| > 0 {
      KeepWhereKeepsOrder(s[1..], unlocked);
      var rest := KeepWhere(s[1..], unlocked);
      if s[0].IsUnlocked() == unlocked {
        assert KeepWhere(s, unlocked) == [s[0]] + rest;
        assert ([s[0]] + rest)[1..] == rest;
      } else {
        assert KeepWhere(s, unlocked) == rest;
        KeepWhereMembers(s[1..], unlocked);
        if |rest| > 0 {
          assert rest[0] in rest;
        }
      }
    }
  }

  /** Nothing is kept when no item has the wanted state. */
  lemma {:induction false} KeepWhereNone(s: seq<UserAchievement>, unlocked: bool)
    requires forall x :: x in s ==> x.IsUnlocked() != unlocked
    ensures KeepWhere(s, unlocked) == []
  {
    if |s| > 0 {
      assert s[0] in s;
      KeepWhereNone(s[1..], unlocked);
    }
  }

  /** The earned and the locked items split the input between them. */
  lemma {:induction false} KeepWherePartition(s: seq<UserAchievement>)
    ensures multiset(KeepWhere(s, true)) + multiset(KeepWhere(s, false)) == multiset(s)
    ensures |KeepWhere(s, true)| + |KeepWhere(s, false)| == |s|
  {
    if |s| > 0 {
      KeepWherePartition(s[1..]);
      KeepWhereStep(s, true);
      KeepWhereStep(s, false);
      SplitHead(s, KeepWhere(s[1..], true), KeepWhere(s[1..], false), KeepWhere(s, true), KeepWhere(s, false));
    }
  }

  /** Sending the head of `s` to one side of a split of its tail splits `s`. */
  lemma SplitHead(s: seq<UserAchievement>, t: seq<UserAchievement>, f: seq<UserAchievement>,
                  kt: seq<UserAchievement>, kf: seq<UserAchievement>)
    requires |s| > 0 && multiset(t) + multiset(f) == multiset(s[1..])
    requires kt == (if s[0].IsUnlocked() then [s[0]] else []) + t
    requires kf == (if s[0].IsUnlocked() then [] else [s[0]]) + f
    ensures multiset(kt) + multiset(kf) == multiset(s)
  {
    assert s == [s[0]] + s[1..];
  }

  lemma KeepWhereStep(s: seq<UserAchievement>, unlocked: bool)
    requires |s| > 0
    ensures KeepWhere(s, unlocked) == (if s[0].IsUnlocked() == unlocked then [s[0]] else []) + KeepWhere(s[1..], unlocked)
  {
  }

  /** The filter switch; anything but `earned` and `locked` keeps the list. */
  function ApplyFilter(f: Filter, s: seq<UserAchievement>): (r: seq<UserAchievement>)
    ensures f == All ==> r == s
    ensures f == Earned ==> r == KeepWhere(s, true)
    ensures f == Locked ==> r == KeepWhere(s, false)
  {
    match f
    case All => s
    case Earned => KeepWhere(s, true)
    case Locked => KeepWhere(s, false)
  }

  datatype SortKey = ByName | ByTrigger | ByEarned

  /** The comparators, as integers whose sign orders `a` against `b`: names
      and trigger strings by string order; for `earned`, the later unlock
      first, any unlocked item before any locked one, and locked items equal. */
  function Cmp(key: SortKey, a: UserAchievement, b: UserAchievement): int {
    match key
    case ByName => Text.Compare(a.achievement.name, b.achievement.name)
    case ByTrigger => Text.Compare(TriggerName(a.achievement.trigger), TriggerName(b.achievement.trigger))
    case ByEarned =>
      if a.achievedAt.Some? && b.achievedAt.Some? then b.achievedAt.value - a.achievedAt.value
      else if a.achievedAt.Some? then -1
      else if b.achievedAt.Some? then 1
      else 0
  }

  /** Every comparator is antisymmetric. */
  lemma CmpFlip(key: SortKey, a: UserAchievement, b: UserAchievement)
    ensures Cmp(key, a, b) == -Cmp(key, b, a)
  {
    match key
    case ByName => Text.CompareFlip(a.achievement.name, b.achievement.name);
    case ByTrigger => Text.CompareFlip(TriggerName(a.achievement.trigger), TriggerName(b.achievement.trigger));
    case ByEarned =>
  }

  /** Every comparator's "not after" is transitive. */
  lemma CmpTransitive(key: SortKey, a: UserAchievement, b: UserAchievement, c: UserAchievement)
    requires Cmp(key, a, b) <= 0 && Cmp(key, b, c) <= 0
    ensures Cmp(key, a, c) <= 0
  {
    match key
    case ByName => Text.LeTransitive(a.achievement.name, b.achievement.name, c.achievement.name);
    case ByTrigger =>
      Text.LeTransitive(TriggerName(a.achievement.trigger), TriggerName(b.achievement.trigger),
                        TriggerName(c.achievement.trigger));
    case ByEarned =>
  }

  /** Comparing equal is an equivalence. */
  lemma CmpSameTransitive(key: SortKey, a: UserAchievement, b: UserAchievement, c: UserAchievement)
    requires Cmp(key, a, b) == 0 && Cmp(key, b, c) == 0
    ensures Cmp(key, a, c) == 0
  {
    CmpTransitive(key, a, b, c);
    CmpFlip(key, a, b);
    CmpFlip(key, b, c);
    CmpTransitive(key, c, b, a);
    CmpFlip(key, c, a);
  }

  /** Ordered under the comparator, pairwise. */
  predicate Sorted(key: SortKey, s: seq<UserAchievement>) {
    forall i, j :: 0 <= i < j < |s| ==> Cmp(key, s[i], s[j]) <= 0
  }

  /** Place `x` after every item that is not after it (so after its equals). */
  function Insert(key: SortKey, x: UserAchievement, s: seq<UserAchievement>): (r: seq<UserAchievement>)
    ensures multiset(r) == multiset(s) + multiset{x}
    ensures |r| == |s| + 1
  {
    if |s| == 0 then [x]
    else if Cmp(key, s[0], x) <= 0 then
      assert s == [s[0]] + s[1..];
      [s[0]] + Insert(key, x, s[1..])
    else [x] + s
  }

  /** `Array.prototype.sort` with the chosen comparator: a stable sort,
      here an insertion sort of each item after those before it. */
  function SortBy(key: SortKey, s: seq<UserAchievement>): (r: seq<UserAchievement>)
    ensures multiset(r) == multiset(s)
    ensures |r| == |s|
  {
    if |s| == 0 then []
    else
      assert s == s[..|s| - 1] + [s[|s| - 1]];
      Insert(key, s[|s| - 1], SortBy(key, s[..|s| - 1]))
  }

  lemma {:induction false} InsertSorted(key: SortKey, x: UserAchievement, s: seq<UserAchievement>)
    requires Sorted(key, s)
    ensures Sorted(key, Insert(key, x, s))
  {
    if |s| > 0 {
      if Cmp(key, s[0], x) <= 0 {
        var rest := Insert(key, x, s[1..]);
        SortedTail(key, s);
        InsertSorted(key, x, s[1..]);
        forall k | 0 <= k < |rest|
          ensures Cmp(key, s[0], rest[k]) <= 0
        {
          assert rest[k] in multiset(rest);
          if rest[k] != x {
            assert rest[k] in multiset(s[1..]);
            var j :| 0 <= j < |s[1..]| && s[1..][j] == rest[k];
            assert s[j + 1] == rest[k];
          }
        }
        SortedCons(key, s[0], rest);
      } else {
        forall k | 0 <= k < |s|
          ensures Cmp(key, x, s[k]) <= 0
        {
          CmpFlip(key, s[0], x);
          if k > 0 { CmpTransitive(key, x, s[0], s[k]); }
        }
        SortedCons(key, x, s);
      }
    }
  }

  lemma SortedCons(key: SortKey, y: UserAchievement, t: seq<UserAchievement>)
    requires Sorted(key, t)
    requires forall k :: 0 <= k < |t| ==> Cmp(key, y, t[k]) <= 0
    ensures Sorted(key, [y] + t)
  {
    var r := [y] + t;
    forall i, j | 0 <= i < j < |r| ensures Cmp(key, r[i], r[j]) <= 0 {
      assert r[j] == t[j - 1];
      if i > 0 { assert r[i] == t[i - 1]; }
    }
  }

  /** The sorted list is ordered under the comparator. */
  lemma {:induction false} SortBySorted(key: SortKey, s: seq<UserAchievement>)
    ensures Sorted(key, SortBy(key, s))
  {
    if |s| > 0 {
      SortBySorted(key, s[..|s| - 1]);
      InsertSorted(key, s[|s| - 1], SortBy(key, s[..|s| - 1]));
    }
  }

  /** The items of `s` that compare equal to `c`, in order. */
  function SameRank(key: SortKey, s: seq<UserAchievement>, c: UserAchievement): seq<UserAchievement> {
    if |s| == 0 then []
    else (if Cmp(key, s[0], c) == 0 then [s[0]] else []) + SameRank(key, s[1..], c)
  }

  lemma {:induction false} SameRankConcat(key: SortKey, a: seq<UserAchievement>, b: seq<UserAchievement>, c: UserAchievement)
    ensures SameRank(key, a + b, c) == SameRank(key, a, c) + SameRank(key, b, c)
  {
    if |a| > 0 {
      var h, t := a[0], a[1..];
      assert a == [h] + t;
      AppendAssoc([h], t, b);
      SameRankConcat(key, t, b, c);
      SameRankCons(key, h, t + b, c);
      SameRankCons(key, h, t, c);
      AppendAssoc(SameRank(key, [h], c), SameRank(key, t, c), SameRank(key, b, c));
    } else {
      assert a + b == b;
    }
  }

  /** Inserting into a sorted list puts `x` after the items equal to it. */
  lemma {:induction false} SameRankInsert(key: SortKey, x: UserAchievement, s: seq<UserAchievement>, c: UserAchievement)
    requires Sorted(key, s)
    ensures SameRank(key, Insert(key, x, s), c) == SameRank(key, s, c) + SameRank(key, [x], c)
    decreases |s|, 1
  {
    if |s| == 0 {
      assert Insert(key, x, s) == [x] && s + [x] == [x];
    } else if Cmp(key, s[0], x) <= 0 {
      SameRankInsertBehind(key, x, s, c);
    } else {
      SameRankInsertAhead(key, x, s, c);
    }
  }

  lemma {:induction false} SameRankInsertBehind(key: SortKey, x: UserAchievement, s: seq<UserAchievement>, c: UserAchievement)
    requires Sorted(key, s) && |s| > 0 && Cmp(key, s[0], x) <= 0
    ensures SameRank(key, Insert(key, x, s), c) == SameRank(key, s, c) + SameRank(key, [x], c)
    decreases |s|, 0
  {
    var tail := s[1..];
    var inserted := Insert(key, x, tail);
    SortedTail(key, s);
    SameRankInsert(key, x, tail, c);
    InsertBehind(key, x, s);
    SameRankCons(key, s[0], inserted, c);
    SameRankHead(key, s, c);
    AppendAssoc(SameRank(key, [s[0]], c), SameRank(key, tail, c), SameRank(key, [x], c));
  }

  lemma InsertBehind(key: SortKey, x: UserAchievement, s: seq<UserAchievement>)
    requires |s| > 0 && Cmp(key, s[0], x) <= 0
    ensures Insert(key, x, s) == [s[0]] + Insert(key, x, s[1..])
  {
  }

  lemma SameRankHead(key: SortKey, s: seq<UserAchievement>, c: UserAchievement)
    requires |s| > 0
    ensures SameRank(key, s, c) == SameRank(key, [s[0]], c) + SameRank(key, s[1..], c)
  {
    assert s == [s[0]] + s[1..];
    SameRankCons(key, s[0], s[1..], c);
  }

  lemma SameRankCons(key: SortKey, y: UserAchievement, t: seq<UserAchievement>, c: UserAchievement)
    ensures SameRank(key, [y] + t, c) == SameRank(key, [y], c) + SameRank(key, t, c)
  {
    var mine := if Cmp(key, y, c) == 0 then [y] else [];
    assert ([y] + t)[0] == y && ([y] + t)[1..] == t;
    assert [y][1..] == [];
    assert SameRank(key, [y], c) == mine + [];
  }

  lemma {:induction false} SameRankInsertAhead(key: SortKey, x: UserAchievement, s: seq<UserAchievement>, c: UserAchievement)
    requires Sorted(key, s) && |s| > 0 && Cmp(key, s[0], x) > 0
    ensures SameRank(key, Insert(key, x, s), c) == SameRank(key, s, c) + SameRank(key, [x], c)
  {
    var mine := if Cmp(key, x, c) == 0 then [x] else [];
    assert SameRank(key, [x], c) == mine;
    assert Insert(key, x, s) == [x] + s;
    assert ([x] + s)[1..] == s;
    assert SameRank(key, Insert(key, x, s), c) == mine + SameRank(key, s, c);
    if Cmp(key, x, c) == 0 {
      NoneSameAfter(key, x, s, c);
    }
  }

  lemma SortedTail(key: SortKey, s: seq<UserAchievement>)
    requires Sorted(key, s) && |s| > 0
    ensures Sorted(key, s[1..])
  {
    forall i, j | 0 <= i < j < |s| - 1
      ensures Cmp(key, s[1..][i], s[1..][j]) <= 0
    {
      assert s[1..][i] == s[i + 1] && s[1..][j] == s[j + 1];
    }
  }

  /** Items all strictly after `x` include none equal to `x`'s rank. */
  lemma {:induction false} NoneSameAfter(key: SortKey, x: UserAchievement, s: seq<UserAchievement>, c: UserAchievement)
    requires Sorted(key, s) && |s| > 0 && Cmp(key, s[0], x) > 0 && Cmp(key, x, c) == 0
    ensures SameRank(key, s, c) == []
  {
    if Cmp(key, s[0], c) == 0 {
      CmpFlip(key, x, c);
      CmpSameTransitive(key, s[0], c, x);
    }
    if |s| > 1 {
      if Cmp(key, s[1], x) <= 0 {
        CmpTransitive(key, s[0], s[1], x);
      }
      NoneSameAfter(key, x, s[1..], c);
    }
  }

  /** Stability: items comparing equal keep their input order. */
  lemma {:induction false} SortByStable(key: SortKey, s: seq<UserAchievement>, c: UserAchievement)
    ensures SameRank(key, SortBy(key, s), c) == SameRank(key, s, c)
  {
    if |s| > 0 {
      var init, last := s[..|s| - 1], s[|s| - 1];
      var sorted := SortBy(key, init);
      SortByStable(key, init, c);
      SortBySorted(key, init);
      SameRankInsert(key, last, sorted, c);
      SortByLast(key, s);
      SameRankLast(key, s, c);
    }
  }

  lemma SameRankLast(key: SortKey, s: seq<UserAchievement>, c: UserAchievement)
    requires |s| > 0
    ensures SameRank(key, s, c) == SameRank(key, s[..|s| - 1], c) + SameRank(key, [s[|s| - 1]], c)
  {
    assert s == s[..|s| - 1] + [s[|s| - 1]];
    SameRankConcat(key, s[..|s| - 1], [s[|s| - 1]], c);
  }

  /** A list already in order is left as it is. */
  lemma {:induction false} SortBySortedIsIdentity(key: SortKey, s: seq<UserAchievement>)
    requires Sorted(key, s)
    ensures SortBy(key, s) == s
  {
    if |s| > 0 {
      var init, last := s[..|s| - 1], s[|s| - 1];
      assert s == init + [last];
      SortedInit(key, s, init, last);
      SortBySortedIsIdentity(key, init);
      InsertAtEnd(key, last, init);
      SortByLast(key, s);
    }
  }

  lemma SortByLast(key: SortKey, s: seq<UserAchievement>)
    requires |s| > 0
    ensures SortBy(key, s) == Insert(key, s[|s| - 1], SortBy(key, s[..|s| - 1]))
  {
  }

  lemma SortedInit(key: SortKey, s: seq<UserAchievement>, init: seq<UserAchievement>, last: UserAchievement)
    requires Sorted(key, s) && s == init + [last]
    ensures Sorted(key, init)
    ensures forall k :: 0 <= k < |init| ==> Cmp(key, init[k], last) <= 0
  {
    forall i, j | 0 <= i < j < |init| ensures Cmp(key, init[i], init[j]) <= 0 {
      assert init[i] == s[i] && init[j] == s[j];
    }
    forall k | 0 <= k < |init| ensures Cmp(key, init[k], last) <= 0 {
      assert init[k] == s[k] && last == s[|s| - 1];
    }
  }

  lemma {:induction false} InsertAtEnd(key: SortKey, x: UserAchievement, s: seq<UserAchievement>)
    requires forall k :: 0 <= k < |s| ==> Cmp(key, s[k], x) <= 0
    ensures Insert(key, x, s) == s + [x]
  {
    if |s| > 0 {
      InsertAtEnd(key, x, s[1..]);
      assert s == [s[0]] + s[1..];
    }
  }

  /** Sorting twice is sorting once. */
  lemma SortByIdempotent(key: SortKey, s: seq<UserAchievement>)
    ensures SortBy(key, SortBy(key, s)) == SortBy(key, s)
  {
    SortBySorted(key, s);
    SortBySortedIsIdentity(key, SortBy(key, s));
  }

  /** By name: names ascend. */
  lemma NamesAscend(s: seq<UserAchievement>, i: int, j: int)
    requires 0 <= i < j < |SortBy(ByName, s)|
    ensures Text.Le(SortBy(ByName, s)[i].achievement.name, SortBy(ByName, s)[j].achievement.name)
  {
    SortBySorted(ByName, s);
  }

  /** By trigger: trigger strings ascend. */
  lemma TriggersAscend(s: seq<UserAchievement>, i: int, j: int)
    requires 0 <= i < j < |SortBy(ByTrigger, s)|
    ensures Text.Le(TriggerName(SortBy(ByTrigger, s)[i].achievement.trigger),
                    TriggerName(SortBy(ByTrigger, s)[j].achievement.trigger))
  {
    SortBySorted(ByTrigger, s);
  }

  /** By earned: unlocked items come first, most recent first. */
  lemma EarnedFirstMostRecentFirst(s: seq<UserAchievement>, i: int, j: int)
    requires 0 <= i < j < |SortBy(ByEarned, s)|
    ensures var r := SortBy(ByEarned, s);
            r[j].IsUnlocked() ==> r[i].IsUnlocked() && r[i].achievedAt.value >= r[j].achievedAt.value
  {
    SortBySorted(ByEarned, s);
    var r := SortBy(ByEarned, s);
    assert Cmp(ByEarned, r[i], r[j]) <= 0;
  }

  /** By earned: locked items are all equal, so they keep their input order. */
  lemma LockedKeepOrder(s: seq<UserAchievement>)
    ensures KeepWhere(SortBy(ByEarned, s), false) == KeepWhere(s, false)
  {
    var c := UserAchievement(Achievement("", "", MetricTrigger, None), None);
    SortByStable(ByEarned, s, c);
    LockedAreOneRank(SortBy(ByEarned, s), c);
    LockedAreOneRank(s, c);
  }

  lemma {:induction false} LockedAreOneRank(s: seq<UserAchievement>, c: UserAchievement)
    requires !c.IsUnlocked()
    ensures SameRank(ByEarned, s, c) == KeepWhere(s, false)
  {
    if |s| > 0 {
      LockedAreOneRank(s[1..], c);
    }
  }

  /** What the grid renders: the caller's empty state, the built-in message,
      or the items kept after the locked-and-hidden skip. */
  datatype GridView = CustomEmpty | EmptyMessage(text: string) | Items(shown: seq<UserAchievement>)

  /** The built-in empty-state message, by filter. */
  function EmptyText(f: Filter): (t: string)
    ensures f == Earned ==> t == "No achievements earned yet"
    ensures f == Locked ==> t == "All achievements unlocked!"
    ensures f == All ==> t == "No achievements available"
  {
    match f
    case Earned => "No achievements earned yet"
    case Locked => "All achievements unlocked!"
    case All => "No achievements available"
  }

  /** An item is skipped iff it is locked and locked items are hidden. */
  predicate Skipped(a: UserAchievement, lockedStyle: LockedStyle) {
    !a.IsUnlocked() && lockedStyle == HiddenWhenLocked
  }

  function Unskipped(s: seq<UserAchievement>, lockedStyle: LockedStyle): (r: seq<UserAchievement>)
    ensures forall x :: x in r <==> x in s && !Skipped(x, lockedStyle)
    ensures IsSubsequence(r, s)
    ensures forall x :: multiset(r)[x] == if Skipped(x, lockedStyle) then 0 else multiset(s)[x]
    ensures lockedStyle == HiddenWhenLocked ==> r == KeepWhere(s, true)
    ensures lockedStyle != HiddenWhenLocked ==> r == s
  {
    KeepWhereMembers(s, true);
    if lockedStyle == HiddenWhenLocked then
      KeepWhereKeepsOrder(s, true);
      KeepWhereCounts(s);
      KeepWhere(s, true)
    else
      SubsequenceOfItself(s);
      s
  }

  /** The unlocked items keep every copy they had in the input, and no
      locked item survives. */
  lemma KeepWhereCounts(s: seq<UserAchievement>)
    ensures forall x :: multiset(KeepWhere(s, true))[x] == if x.IsUnlocked() then multiset(s)[x] else 0
  {
    KeepWherePartition(s);
    KeepWhereMembers(s, true);
    KeepWhereMembers(s, false);
    forall x
      ensures multiset(KeepWhere(s, true))[x] == if x.IsUnlocked() then multiset(s)[x] else 0
    {
      assert multiset(KeepWhere(s, true))[x] + multiset(KeepWhere(s, false))[x] == multiset(s)[x];
      if x.IsUnlocked() {
        assert x !in KeepWhere(s, false);
      } else {
        assert x !in KeepWhere(s, true);
      }
    }
  }

  /** Skipping items keeps a sorted list sorted. */
  lemma UnskippedSorted(key: SortKey, s: seq<UserAchievement>, lockedStyle: LockedStyle)
    requires Sorted(key, s)
    ensures Sorted(key, Unskipped(s, lockedStyle))
  {
    if lockedStyle == HiddenWhenLocked {
      KeepWhereSorted(key, s, true);
    }
  }

  /** Keeping the items of one unlock state keeps a sorted list sorted. */
  lemma {:induction false} KeepWhereSorted(key: SortKey, s: seq<UserAchievement>, unlocked: bool)
    requires Sorted(key, s)
    ensures Sorted(key, KeepWhere(s, unlocked))
  {
    if |s| > 0 {
      var rest := KeepWhere(s[1..], unlocked);
      SortedTail(key, s);
      KeepWhereSorted(key, s[1..], unlocked);
      KeepWhereStep(s, unlocked);
      if s[0].IsUnlocked() == unlocked {
        KeepWhereMembers(s[1..], unlocked);
        forall k | 0 <= k < |rest|
          ensures Cmp(key, s[0], rest[k]) <= 0
        {
          assert rest[k] in rest;
          var j :| 0 <= j < |s[1..]| && s[1..][j] == rest[k];
          assert s[j + 1] == rest[k];
        }
        SortedCons(key, s[0], rest);
      }
    }
  }

  /** The grid: filter, sort, then either an empty state (decided on the
      sorted list, before any skipping) or the items not skipped. */
  function Grid(achievements: seq<UserAchievement>, f: Filter, key: SortKey,
                lockedStyle: LockedStyle, hasEmptyState: bool): (v: GridView)
    ensures v.Items? <==> |ApplyFilter(f, achievements)| > 0
    ensures v.CustomEmpty? <==> |ApplyFilter(f, achievements)| == 0 && hasEmptyState
    ensures v.EmptyMessage? ==> v.text == EmptyText(f)
    ensures v.Items? ==> forall x :: x in v.shown <==> x in ApplyFilter(f, achievements) && !Skipped(x, lockedStyle)
    ensures v.Items? ==> Sorted(key, v.shown)
    ensures v.Items? ==> IsSubsequence(v.shown, SortBy(key, ApplyFilter(f, achievements)))
    ensures v.Items? && lockedStyle != HiddenWhenLocked ==> v.shown == SortBy(key, ApplyFilter(f, achievements))
    ensures v.Items? ==> forall x :: multiset(v.shown)[x]
                                     == if Skipped(x, lockedStyle) then 0 else multiset(ApplyFilter(f, achievements))[x]
  {
    var sorted := SortBy(key, ApplyFilter(f, achievements));
    if |sorted| == 0 then
      if hasEmptyState then CustomEmpty else EmptyMessage(EmptyText(f))
    else
      assert forall x :: x in sorted <==> x in multiset(sorted);
      SortBySorted(key, ApplyFilter(f, achievements));
      UnskippedSorted(key, sorted, lockedStyle);
      Items(Unskipped(sorted, lockedStyle))
  }

  /** The empty-state message is true of the input: no earned item for
      `earned`, no locked item for `locked`, nothing at all otherwise. */
  lemma EmptyMessageIsTrue(achievements: seq<UserAchievement>, f: Filter, key: SortKey, lockedStyle: LockedStyle)
    requires Grid(achievements, f, key, lockedStyle, false).EmptyMessage?
    ensures f == Earned ==> forall x :: x in achievements ==> !x.IsUnlocked()
    ensures f == Locked ==> forall x :: x in achievements ==> x.IsUnlocked()
    ensures f == All ==> achievements == []
  {
    if f == Earned {
      KeepWhereMembers(achievements, true);
      forall x | x in achievements ensures !x.IsUnlocked() {
        assert x !in KeepWhere(achievements, true);
      }
    } else if f == Locked {
      KeepWhereMembers(achievements, false);
      forall x | x in achievements ensures x.IsUnlocked() {
        assert x !in KeepWhere(achievements, false);
      }
    }
  }

  /** With locked items hidden, a `locked` filter over a non-empty result
      shows an empty grid and no empty-state message. */
  lemma HiddenLockedShowsBlankGrid(achievements: seq<UserAchievement>, key: SortKey, hasEmptyState: bool)
    requires exists x :: x in achievements && !x.IsUnlocked()
    ensures Grid(achievements, Locked, key, HiddenWhenLocked, hasEmptyState) == Items([])
  {
    var x :| x in achievements && !x.IsUnlocked();
    var kept := KeepWhere(achievements, false);
    KeepWhereMembers(achievements, false);
    assert x in kept;
    var sorted := SortBy(key, kept);
    forall y | y in sorted ensures !y.IsUnlocked() {
      assert y in multiset(sorted);
      assert y in multiset(kept);
    }
    KeepWhereNone(sorted, true);
    assert Grid(achievements, Locked, key, HiddenWhenLocked, hasEmptyState) == Items(Unskipped(sorted, HiddenWhenLocked));
  }

  /** The per-item accessible label, `name - Earned|Locked`. */
  function ItemLabel(a: UserAchievement): (s: string)
    ensures a.IsUnlocked() ==> s == a.achievement.name + " - Earned"
    ensures !a.IsUnlocked() ==> s == a.achievement.name + " - Locked"
    ensures s[|a.achievement.name| + 3..] == "Earned" <==> a.IsUnlocked()
  {
    a.achievement.name + " - " + (if a.IsUnlocked() then "Earned" else "Locked")
  }
}

=== FILE: achievements.dfy ===
/** Achievements and the two widgets that show one: the progress bar and the
    badge. */
module Achievements {
  import opened Prelude
  import Text

  /** The closed set of ways an achievement is earned. */
  datatype TriggerKind = MetricTrigger | ApiTrigger | StreakTrigger

  /** The trigger as the API spells it; sorting by trigger compares these. */
  function TriggerName(t: TriggerKind): string {
    match t
    case MetricTrigger => "metric"
    case ApiTrigger => "api"
    case StreakTrigger => "streak"
  }

  /** `metricValue` is the target of a metric achievement, when it has one. */
  datatype Achievement = Achievement(id: string, name: string, trigger: TriggerKind, metricValue: Option<int>)

  /** `achievedAt` is the unlock time in epoch milliseconds, absent while the
      achievement is locked. */
  datatype UserAchievement = UserAchievement(achievement: Achievement, achievedAt: Option<int>) {
    predicate IsUnlocked() { achievedAt.Some? }
  }

  /** `achievement.metricValue ?? 0`. */
  function Target(a: Achievement): (t: int)
    ensures a.metricValue.None? ==> t == 0
    ensures a.metricValue.Some? ==> t == a.metricValue.value
  {
    a.metricValue.GetOr(0)
  }

  function RealMin(x: real, y: real): real { if x <= y then x else y }

  /** Percentage towards the target, capped at 100, and 0 when the target is
      not positive (no division by zero). */
  function Progress(current: int, target: int): (p: real)
    ensures target <= 0 ==> p == 0.0
    ensures target > 0 && current >= 0 ==> 0.0 <= p <= 100.0
    ensures target > 0 ==> (p == 100.0 <==> current >= target)
    ensures target > 0 && current <= target ==> p * target as real == 100.0 * current as real
  {
    if target > 0 then
      var q := current as real / target as real;
      assert q * target as real == current as real;
      assert q >= 1.0 <==> current >= target;
      RealMin(q * 100.0, 100.0)
    else 0.0
  }

  /** More progress never shows a smaller percentage. */
  lemma ProgressMonotone(c1: int, c2: int, target: int)
    requires c1 <= c2
    ensures Progress(c1, target) <= Progress(c2, target)
  {
    if target > 0 {
      var t := target as real;
      assert c1 as real / t <= c2 as real / t by {
        assert c1 as real / t * t == c1 as real;
        assert c2 as real / t * t == c2 as real;
      }
    }
  }

  /** `isComplete`: the current value reaches the target, decided on the
      numbers themselves and not on the percentage. */
  predicate IsComplete(current: int, target: int) {
    current >= target
  }

  /** Reaching a positive target means both a full bar and completion. */
  lemma ReachedTargetIsFullAndComplete(current: int, target: int)
    requires current >= target > 0
    ensures Progress(current, target) == 100.0 && IsComplete(current, target)
  {
  }

  /** Without a target any non-negative value counts as complete although
      the bar stays empty. */
  lemma NoTargetIsCompleteButEmpty(a: Achievement, current: int)
    requires a.metricValue.None? && current >= 0
    ensures IsComplete(current, Target(a)) && Progress(current, Target(a)) == 0.0
  {
  }

  /** `Math.round`: halves round up. */
  function RoundHalfUp(x: real): (n: int)
    ensures n as real - 0.5 <= x < n as real + 0.5
  {
    (x + 0.5).Floor
  }

  /** The percentage text, `Math.round(progress)`. */
  function ShownPercentage(current: int, target: int): (n: int)
    ensures target > 0 && current >= 0 ==> 0 <= n <= 100
    ensures n as real - 0.5 <= Progress(current, target) < n as real + 0.5
  {
    RoundHalfUp(Progress(current, target))
  }

  /** The rounded text can read 100% while the achievement is not complete. */
  lemma RoundedHundredIsNotCompletion()
    ensures ShownPercentage(199, 200) == 100 && !IsComplete(199, 200)
  {
    assert Progress(199, 200) == 99.5;
  }

  /** The numbers the progress widget derives. */
  datatype ProgressState = ProgressState(target: int, progress: real, isComplete: bool)

  function ProgressOf(a: Achievement, currentValue: int): (s: ProgressState)
    ensures s.target == Target(a)
    ensures s.progress == Progress(currentValue, s.target)
    ensures s.isComplete <==> currentValue >= s.target
    ensures currentValue >= 0 ==> 0.0 <= s.progress <= 100.0
    ensures s.isComplete && s.target > 0 ==> s.progress == 100.0
    ensures s.target <= 0 ==> s.progress == 0.0
  {
    var target := Target(a);
    ProgressState(target, Progress(currentValue, target), IsComplete(currentValue, target))
  }

  /** With a positive target the bar is full exactly when the achievement is
      complete. */
  lemma FullBarIffComplete(a: Achievement, currentValue: int)
    requires Target(a) > 0
    ensures ProgressOf(a, currentValue).progress == 100.0 <==> ProgressOf(a, currentValue).isComplete
  {
  }

  /** The badge's locked-achievement styles. */
  datatype LockedStyle = Grayscale | Silhouette | HiddenWhenLocked

  /** What the badge renders when it renders at all. */
  datatype BadgeView = BadgeView(ariaLabel: string, progressBar: Option<real>, lockIcon: bool)

  /** `, c of t progress`, present only for a locked metric achievement whose
      progress is asked for. */
  function ProgressSuffix(a: UserAchievement, showProgress: bool, current: int): (s: string)
    ensures s != "" <==> showProgress && a.achievement.trigger == MetricTrigger && !a.IsUnlocked()
    ensures s != "" ==> s == ", " + Text.IntToString(current) + " of " + Text.IntToString(Target(a.achievement)) + " progress"
  {
    if showProgress && a.achievement.trigger == MetricTrigger && !a.IsUnlocked()
    then ", " + Text.IntToString(current) + " of " + Text.IntToString(Target(a.achievement)) + " progress"
    else ""
  }

  /** The badge: nothing for a locked achievement styled hidden; otherwise the
      label `name, Unlocked|Locked` plus the progress suffix, the progress bar
      under the same condition as the suffix, and the lock icon on locked
      badges. `currentValue` defaults to 0. */
  function Badge(a: UserAchievement, showProgress: bool, currentValue: Option<int>,
                 lockedStyle: LockedStyle, showLockIcon: bool): (v: Option<BadgeView>)
    ensures v.None? <==> !a.IsUnlocked() && lockedStyle == HiddenWhenLocked
    ensures a.IsUnlocked() ==> v.Some?
    ensures v.Some? ==> (v.value.progressBar.Some? <==> showProgress && a.achievement.trigger == MetricTrigger && !a.IsUnlocked())
    ensures v.Some? ==> (v.value.lockIcon <==> !a.IsUnlocked() && showLockIcon)
    ensures v.Some? ==> v.value.ariaLabel == BadgeHead(a) + ProgressSuffix(a, showProgress, currentValue.GetOr(0))
    ensures v.Some? && v.value.progressBar.Some? ==>
              v.value.progressBar.value == Progress(currentValue.GetOr(0), Target(a.achievement))
    ensures v.Some? && v.value.progressBar.Some? && currentValue.GetOr(0) >= 0 ==>
              0.0 <= v.value.progressBar.value <= 100.0
  {
    if !a.IsUnlocked() && lockedStyle == HiddenWhenLocked then None
    else
      var current := currentValue.GetOr(0);
      var suffix := ProgressSuffix(a, showProgress, current);
      var bar := if suffix != "" then Some(Progress(current, Target(a.achievement))) else None;
      Some(BadgeView(BadgeHead(a) + suffix, bar, !a.IsUnlocked() && showLockIcon))
  }

  /** `name, Unlocked` or `name, Locked`. */
  function BadgeHead(a: UserAchievement): string {
    a.achievement.name + ", " + (if a.IsUnlocked() then "Unlocked" else "Locked")
  }

  /** The label starts with the name and says whether the badge is unlocked;
      with no progress suffix that is all it says. */
  lemma BadgeLabelShape(a: UserAchievement, showProgress: bool, currentValue: Option<int>,
                        lockedStyle: LockedStyle, showLockIcon: bool)
    requires a.IsUnlocked() || lockedStyle != HiddenWhenLocked
    ensures BadgeHead(a) <= Badge(a, showProgress, currentValue, lockedStyle, showLockIcon).value.ariaLabel
    ensures a.IsUnlocked() || !showProgress || a.achievement.trigger != MetricTrigger ==>
              Badge(a, showProgress, currentValue, lockedStyle, showLockIcon).value.ariaLabel == BadgeHead(a)
  {
    var current := currentValue.GetOr(0);
    var suffix := ProgressSuffix(a, showProgress, current);
    assert BadgeHead(a) + suffix == Badge(a, showProgress, currentValue, lockedStyle, showLockIcon).value.ariaLabel;
  }

  /** With the default current value the bar of a targeted achievement is
      empty. */
  lemma DefaultCurrentShowsNoProgress(a: UserAchievement, lockedStyle: LockedStyle, showLockIcon: bool)
    requires !a.IsUnlocked() && lockedStyle != HiddenWhenLocked && a.achievement.trigger == MetricTrigger
    ensures Badge(a, true, None, lockedStyle, showLockIcon).value.progressBar == Some(0.0)
  {
  }

  /** A locked metric badge whose current value has reached its positive
      target shows a full bar and says so in its label. */
  lemma ReachedBadgeShowsFullBar(a: UserAchievement, current: int, lockedStyle: LockedStyle, showLockIcon: bool)
    requires !a.IsUnlocked() && lockedStyle != HiddenWhenLocked && a.achievement.trigger == MetricTrigger
    requires current >= Target(a.achievement) > 0
    ensures Badge(a, true, Some(current), lockedStyle, showLockIcon).value.progressBar == Some(100.0)
    ensures Badge(a, true, Some(current), lockedStyle, showLockIcon).value.ariaLabel
            == BadgeHead(a) + ", " + Text.IntToString(current) + " of " + Text.IntToString(Target(a.achievement)) + " progress"
  {
  }
}

=== FILE: dates.dfy ===
/** Proleptic Gregorian calendar dates, as the widgets read them from
    JavaScript `Date` objects and from the API's `YYYY-MM-DD` strings. */
module Dates {
  import opened Prelude
  import Text

  /** A calendar date; `month` is 1-based here (JavaScript's `getMonth` is
      0-based, and callers add one). */
  datatype Date = Date(year: int, month: int, day: int)

  predicate IsLeapYear(y: int) {
    y % 4 == 0 && (y % 100 != 0 || y % 400 == 0)
  }

  /** The last day of a month: what `new Date(y, m + 1, 0).getDate()` yields. */
  function DaysInMonth(y: int, m: int): (n: int)
    requires 1 <= m <= 12
    ensures 28 <= n <= 31
    ensures m == 2 ==> (n == 29 <==> IsLeapYear(y))
    ensures m != 2 ==> (n == 30 <==> m in {4, 6, 9, 11})
  {
    if m == 2 then (if IsLeapYear(y) then 29 else 28)
    else if m == 4 || m == 6 || m == 9 || m == 11 then 30
    else 31
  }

  predicate ValidDate(d: Date) {
    1 <= d.month <= 12 && 1 <= d.day <= DaysInMonth(d.year, d.month)
  }

  /** Days since 1970-01-01 (negative before it): the civil-to-day-number
      conversion on a calendar whose years start in March, so that the leap
      day falls at the end of the year. */
  function DaysFromCivil(y: int, m: int, d: int): int
    requires 1 <= m <= 12
  {
    var y' := if m <= 2 then y - 1 else y;
    var mp := if m > 2 then m - 3 else m + 9;
    YearStart(y') + MonthStart(mp) + d - 1 - 719468
  }

  /** Days before March 1 of March-based year `y`, counted from March 1 of
      year 0. */
  function YearStart(y: int): int {
    365 * y + y / 4 - y / 100 + y / 400
  }

  /** Days from March 1 to the first of the `mp`-th month after March. */
  function MonthStart(mp: int): int {
    (153 * mp + 2) / 5
  }

  /** Day of the week, 0 = Sunday, as `Date.prototype.getDay` numbers it. */
  function Weekday(y: int, m: int, d: int): (w: int)
    requires 1 <= m <= 12
    ensures 0 <= w < 7
  {
    (DaysFromCivil(y, m, d) + 4) % 7
  }

  /** The day numbering is anchored at the Unix epoch, a Thursday. */
  lemma EpochAnchor()
    ensures DaysFromCivil(1970, 1, 1) == 0
    ensures Weekday(1970, 1, 1) == 4
  {
  }

  /** Consecutive days of a month get consecutive day numbers. */
  lemma NextDay(y: int, m: int, d: int)
    requires 1 <= m <= 12
    ensures DaysFromCivil(y, m, d + 1) == DaysFromCivil(y, m, d) + 1
  {
  }

  lemma DivStep4(y: int)
    ensures y / 4 - (y - 1) / 4 == if y % 4 == 0 then 1 else 0
  {
  }

  lemma DivStep100(y: int)
    ensures y / 100 - (y - 1) / 100 == if y % 100 == 0 then 1 else 0
  {
  }

  lemma DivStep400(y: int)
    ensures y / 400 - (y - 1) / 400 == if y % 400 == 0 then 1 else 0
  {
  }

  /** The leap-year rule equals the correction the day numbering applies
      when it crosses from February into March. */
  lemma LeapCorrection(y: int)
    ensures (y / 4 - (y - 1) / 4) - (y / 100 - (y - 1) / 100) + (y / 400 - (y - 1) / 400)
            == if IsLeapYear(y) then 1 else 0
  {
    DivStep4(y);
    DivStep100(y);
    DivStep400(y);
    if y % 100 == 0 {
      assert y == 100 * (y / 100);
      assert y % 4 == 0;
    }
    if y % 400 == 0 {
      assert y == 400 * (y / 400);
      assert y % 100 == 0;
    }
  }

  function NextMonthYear(y: int, m: int): int
    requires 1 <= m <= 12
  {
    if m == 12 then y + 1 else y
  }

  function NextMonth(m: int): (n: int)
    requires 1 <= m <= 12
    ensures 1 <= n <= 12
  {
    if m == 12 then 1 else m + 1
  }

  /** The first of the next month comes exactly `DaysInMonth` days after the
      first of this one: the month lengths and the day numbering agree. */
  lemma FirstOfNextMonth(y: int, m: int)
    requires 1 <= m <= 12
    ensures DaysFromCivil(NextMonthYear(y, m), NextMonth(m), 1) == DaysFromCivil(y, m, 1) + DaysInMonth(y, m)
  {
    if m == 2 {
      YearLength(y);
      assert MonthStart(11) == 337 && MonthStart(0) == 0;
    } else {
      OffsetStep(if m > 2 then m - 3 else m + 9);
    }
  }

  /** A March-based year ending in February of a leap year has 366 days. */
  lemma YearLength(y: int)
    ensures YearStart(y) - YearStart(y - 1) == if IsLeapYear(y) then 366 else 365
  {
    LeapCorrection(y);
  }

  /** Within a March-based year, the offsets of consecutive months differ by
      the earlier month's length. */
  lemma OffsetStep(mp: int)
    requires 0 <= mp < 11
    ensures MonthStart(mp + 1) - MonthStart(mp) == if mp in {1, 3, 6, 8} then 30 else 31
  {
  }

  /** Calendar order on dates: year, then month, then day. */
  function CompareDates(a: Date, b: Date): int {
    if a.year != b.year then Text.Sign(a.year - b.year)
    else if a.month != b.month then Text.Sign(a.month - b.month)
    else Text.Sign(a.day - b.day)
  }

  /** Swapping the dates negates the comparison. */
  lemma CompareDatesFlip(a: Date, b: Date)
    ensures CompareDates(a, b) == -CompareDates(b, a)
  {
  }

  predicate DateLe(a: Date, b: Date) {
    CompareDates(a, b) <= 0
  }

  /** Years that `toISOString` writes with exactly four digits. */
  predicate IsoYear(y: int) {
    0 <= y <= 9999
  }

  predicate IsoDatable(d: Date) {
    IsoYear(d.year) && ValidDate(d)
  }

  /** The `YYYY-MM-DD` text of a date, as `toISOString().split("T")[0]`
      produces it. */
  function IsoDate(d: Date): (s: string)
    requires IsoDatable(d)
    ensures |s| == 10 && s[4] == '-' && s[7] == '-'
  {
    Text.Fixed(d.year, 4) + "-" + Text.Fixed(d.month, 2) + "-" + Text.Fixed(d.day, 2)
  }

  /** Dash-separated fields of equal widths compare field by field. */
  lemma CompareFields(y1: string, m1: string, d1: string, y2: string, m2: string, d2: string)
    requires |y1| == |y2| && |m1| == |m2|
    ensures Text.Compare(y1 + "-" + m1 + "-" + d1, y2 + "-" + m2 + "-" + d2)
            == if y1 != y2 then Text.Compare(y1, y2)
               else if m1 != m2 then Text.Compare(m1, m2)
               else Text.Compare(d1, d2)
  {
    var t1, t2 := m1 + "-" + d1, m2 + "-" + d2;
    assert y1 + "-" + m1 + "-" + d1 == y1 + ("-" + t1);
    assert y2 + "-" + m2 + "-" + d2 == y2 + ("-" + t2);
    Text.CompareConcat(y1, "-" + t1, y2, "-" + t2);
    Text.CompareConcat("-", t1, "-", t2);
    assert t1 == m1 + ("-" + d1) && t2 == m2 + ("-" + d2);
    Text.CompareConcat(m1, "-" + d1, m2, "-" + d2);
    Text.CompareConcat("-", d1, "-", d2);
  }

  /** Comparing ISO date strings as strings is comparing the dates: the
      reason the source may compare period bounds textually. */
  lemma IsoDateOrder(a: Date, b: Date)
    requires IsoDatable(a) && IsoDatable(b)
    ensures Text.Compare(IsoDate(a), IsoDate(b)) == CompareDates(a, b)
  {
    var ya, yb := Text.Fixed(a.year, 4), Text.Fixed(b.year, 4);
    var ma, mb := Text.Fixed(a.month, 2), Text.Fixed(b.month, 2);
    var da, db := Text.Fixed(a.day, 2), Text.Fixed(b.day, 2);
    CompareFields(ya, ma, da, yb, mb, db);
    Text.CompareFixed(a.year, b.year, 4);
    Text.CompareFixed(a.month, b.month, 2);
    Text.CompareFixed(a.day, b.day, 2);
    Text.CompareZero(ya, yb);
    Text.CompareZero(ma, mb);
  }

  /** Reads a `YYYY-MM-DD` string; anything else, or a day the month does
      not have, is not a date. */
  function ParseIsoDate(s: string): (r: Option<Date>)
    ensures r.Some? ==> IsoDatable(r.value)
  {
    if |s| == 10 && s[4] == '-' && s[7] == '-'
       && Text.AllDigits(s[..4]) && Text.AllDigits(s[5..7]) && Text.AllDigits(s[8..])
    then
      var d := Date(Text.ParseDigits(s[..4]), Text.ParseDigits(s[5..7]), Text.ParseDigits(s[8..]));
      Text.FixedOfParse(s[..4]);
      if ValidDate(d) then Some(d) else None
    else None
  }

  /** Rendering then parsing a date gives it back. */
  lemma ParseIsoDateOfIsoDate(d: Date)
    requires IsoDatable(d)
    ensures ParseIsoDate(IsoDate(d)) == Some(d)
  {
    var y, m, dd := Text.Fixed(d.year, 4), Text.Fixed(d.month, 2), Text.Fixed(d.day, 2);
    IsoFields(y, m, dd);
    Text.ParseFixed(d.year, 4);
    Text.ParseFixed(d.month, 2);
    Text.ParseFixed(d.day, 2);
  }

  /** The fields of a dash-joined date text sit at fixed positions. */
  lemma IsoFields(y: string, m: string, d: string)
    requires |y| == 4 && |m| == 2 && |d| == 2
    ensures var s := y + "-" + m + "-" + d;
            |s| == 10 && s[4] == '-' && s[7] == '-' && s[..4] == y && s[5..7] == m && s[8..] == d
  {
  }

  /** Parsing then rendering gives back the very string: a string that parses
      is the one canonical text of its date. */
  lemma IsoDateOfParseIsoDate(s: string)
    requires ParseIsoDate(s).Some?
    ensures IsoDate(ParseIsoDate(s).value) == s
  {
    var d := ParseIsoDate(s).value;
    Text.FixedOfParse(s[..4]);
    Text.FixedOfParse(s[5..7]);
    Text.FixedOfParse(s[8..]);
    assert s == s[..4] + "-" + s[5..7] + "-" + s[8..];
  }
}

=== FILE: leaderboard.dfy ===
/** A leaderboard ranking and the two rules every leaderboard widget shares:
    the display-name fallback and the medal for ranks 1 to 3. */
module Rankings {
  import opened Prelude

  datatype Ranking = Ranking(userId: string, userName: Option<string>, rank: int, value: int)

  /** `userName || "User " + userId.slice(0, 6)`. */
  function DisplayName(r: Ranking): (name: string)
    ensures name != ""
    ensures r.userName.Some? && r.userName.value != "" ==> name == r.userName.value
    ensures r.userName.None? || r.userName.value == "" ==>
              name == "User " + r.userId[..Min(6, |r.userId|)]
  {
    OrString(r.userName, "User " + SliceTo(r.userId, 6))
  }

  /** The fallback name shows at most six characters of the id, so ids that
      share their first six characters share a fallback name. */
  lemma FallbackSharesPrefix(a: Ranking, b: Ranking)
    requires a.userName.None? && b.userName.None?
    requires |a.userId| >= 6 && |b.userId| >= 6 && a.userId[..6] == b.userId[..6]
    ensures DisplayName(a) == DisplayName(b)
  {
  }

  /** The crown for first place and the medals for second and third. */
  datatype Medal = Crown | Silver | Bronze

  /** `getRankDisplay` / `getRankBadge`: a medal for ranks 1, 2 and 3 only. */
  function RankMedal(rank: int): (m: Option<Medal>)
    ensures m.Some? <==> 1 <= rank <= 3
    ensures m == Some(Crown) <==> rank == 1
  {
    if rank == 1 then Some(Crown)
    else if rank == 2 then Some(Silver)
    else if rank == 3 then Some(Bronze)
    else None
  }

  /** Distinct medals go with distinct ranks. */
  lemma MedalDeterminesRank(r1: int, r2: int)
    requires RankMedal(r1).Some? && RankMedal(r1) == RankMedal(r2)
    ensures r1 == r2
  {
  }
}

/** The leaderboard list: which rankings it shows, how each row reads, and
    the "+N more" line. */
module Leaderboard {
  import opened Prelude
  import Text
  import opened Rankings

  /** `leaderboard?.rankings ?? rankings ?? []`. */
  function Source(leaderboard: Option<seq<Ranking>>, rankingsProp: Option<seq<Ranking>>): (s: seq<Ranking>)
    ensures leaderboard.Some? ==> s == leaderboard.value
    ensures leaderboard.None? && rankingsProp.Some? ==> s == rankingsProp.value
    ensures leaderboard.None? && rankingsProp.None? ==> s == []
  {
    leaderboard.GetOr(rankingsProp.GetOr([]))
  }

  /** `limit ? rankings.slice(0, limit) : rankings`: a prefix, never
      re-ranked; a missing or zero limit shows everything. */
  function DisplayRankings(rankings: seq<Ranking>, limit: Option<int>): (shown: seq<Ranking>)
    ensures shown <= rankings
    ensures !Truthy(limit) ==> shown == rankings
    ensures Truthy(limit) && limit.value > 0 ==> |shown| == Min(limit.value, |rankings|)
  {
    if Truthy(limit) then SliceTo(rankings, limit.value) else rankings
  }

  /** `limit && rankings.length > limit`, then `rankings.length - limit`:
      the number of rankings cut off when the limit is positive. */
  function MoreCount(rankings: seq<Ranking>, limit: Option<int>): (n: Option<int>)
    ensures n.Some? <==> Truthy(limit) && |rankings| > limit.value
    ensures n.Some? ==> n.value == |rankings| - limit.value && n.value > 0
  {
    if Truthy(limit) && |rankings| > limit.value then Some(|rankings| - limit.value) else None
  }

  /** For a positive limit the shown rows and the cut-off count add up to
      the whole list. */
  lemma ShownPlusMoreIsAll(rankings: seq<Ranking>, limit: int)
    requires limit > 0
    ensures |DisplayRankings(rankings, Some(limit))| + MoreCount(rankings, Some(limit)).GetOr(0) == |rankings|
    ensures MoreCount(rankings, Some(limit)).None? <==> DisplayRankings(rankings, Some(limit)) == rankings
  {
  }

  /** One row: the medal or `#rank`, the name, and the "(you)" mark. */
  datatype Row = Row(ranking: Ranking, medal: Option<Medal>, rankText: string, name: string, isCurrentUser: bool)

  function RowFor(r: Ranking, currentUserId: Option<string>): (row: Row)
    ensures row.isCurrentUser <==> currentUserId == Some(r.userId)
    ensures row.medal.None? <==> row.rankText == "#" + Text.IntToString(r.rank)
    ensures row.medal == RankMedal(r.rank) && row.name == DisplayName(r) && row.ranking == r
  {
    var medal := RankMedal(r.rank);
    Row(r, medal, if medal.Some? then "" else "#" + Text.IntToString(r.rank), DisplayName(r),
        currentUserId == Some(r.userId))
  }

  /** What the leaderboard renders. `strayZero` is the bare "0" React prints
      after the rows when the limit is the number 0, because
      `{limit && …}` then evaluates to 0 rather than to false. */
  datatype Board = CustomEmpty | NoRankings(text: string) | Rows(rows: seq<Row>, more: Option<int>, strayZero: bool)

  /** The message shown for an empty leaderboard. */
  const NoRankingsText: string := "No rankings yet"

  function Render(leaderboard: Option<seq<Ranking>>, rankingsProp: Option<seq<Ranking>>,
                  limit: Option<int>, currentUserId: Option<string>, hasEmptyState: bool): (b: Board)
    ensures var shown := DisplayRankings(Source(leaderboard, rankingsProp), limit);
            (b.Rows? <==> |shown| > 0)
            && (b.CustomEmpty? <==> |shown| == 0 && hasEmptyState)
            && (b.Rows? ==> |b.rows| == |shown|
                            && (forall i :: 0 <= i < |shown| ==> b.rows[i] == RowFor(shown[i], currentUserId))
                            && b.more == MoreCount(Source(leaderboard, rankingsProp), limit))
    ensures b.Rows? ==> (b.strayZero <==> limit == Some(0))
    ensures b.NoRankings? ==> b.text == "No rankings yet"
  {
    var rankings := Source(leaderboard, rankingsProp);
    var shown := DisplayRankings(rankings, limit);
    if |shown| == 0 then (if hasEmptyState then CustomEmpty else NoRankings(NoRankingsText))
    else Rows(seq(|shown|, i requires 0 <= i < |shown| => RowFor(shown[i], currentUserId)), MoreCount(rankings, limit),
              limit == Some(0))
  }

  /** A limit of 0 shows every ranking and then a stray "0". */
  lemma ZeroLimitShowsStrayZero(rankings: seq<Ranking>, currentUserId: Option<string>, hasEmptyState: bool)
    requires |rankings| > 0
    ensures Render(None, Some(rankings), Some(0), currentUserId, hasEmptyState).Rows?
    ensures Render(None, Some(rankings), Some(0), currentUserId, hasEmptyState).strayZero
    ensures |Render(None, Some(rankings), Some(0), currentUserId, hasEmptyState).rows| == |rankings|
  {
  }

  /** A negative limit drops rankings from the end, yet the "more" line
      counts past the whole list: with two rankings and a limit of -1 one
      row is shown and the line reads "+3 more". */
  lemma NegativeLimitMiscounts(a: Ranking, b: Ranking, currentUserId: Option<string>, hasEmptyState: bool)
    ensures |Render(None, Some([a, b]), Some(-1), currentUserId, hasEmptyState).rows| == 1
    ensures Render(None, Some([a, b]), Some(-1), currentUserId, hasEmptyState).more == Some(3)
  {
    assert DisplayRankings([a, b], Some(-1)) == [a];
  }

  /** The board as evidently intended, with the "more" line guarded by a
      positive limit, as `limit > 0 && rankings.length > limit && …` would
      guard it: the same rows and empty states as `Render`, never a stray
      "0", and a "more" line only for a positive limit, counting exactly the
      rankings not shown. */
  function RenderIntended(leaderboard: Option<seq<Ranking>>, rankingsProp: Option<seq<Ranking>>,
                          limit: Option<int>, currentUserId: Option<string>, hasEmptyState: bool): (b: Board)
    ensures b.Rows? ==> !b.strayZero
    ensures var w := Render(leaderboard, rankingsProp, limit, currentUserId, hasEmptyState);
            b.Rows? <==> w.Rows?
    ensures var w := Render(leaderboard, rankingsProp, limit, currentUserId, hasEmptyState);
            b.Rows? ==> b.rows == w.rows
    ensures b.Rows? ==> (b.more.Some? <==> limit.Some? && limit.value > 0 && |Source(leaderboard, rankingsProp)| > limit.value)
    ensures b.Rows? && b.more.Some? ==> b.more.value == |Source(leaderboard, rankingsProp)| - |b.rows|
    ensures !b.Rows? ==> b == Render(leaderboard, rankingsProp, limit, currentUserId, hasEmptyState)
  {
    var w := Render(leaderboard, rankingsProp, limit, currentUserId, hasEmptyState);
    if w.Rows? then
      w.(strayZero := false, more := if limit.Some? && limit.value > 0 then w.more else None)
    else w
  }

  /** Rows marked as the current user all carry the current user's id, so
      when the shown rankings have distinct user ids at most one row is
      marked. */
  lemma OneCurrentUser(leaderboard: Option<seq<Ranking>>, rankingsProp: Option<seq<Ranking>>,
                       limit: Option<int>, currentUserId: Option<string>, hasEmptyState: bool, i: int, j: int)
    requires var b := Render(leaderboard, rankingsProp, limit, currentUserId, hasEmptyState);
             b.Rows? && 0 <= i < |b.rows| && 0 <= j < |b.rows|
             && b.rows[i].isCurrentUser && b.rows[j].isCurrentUser
    ensures Render(leaderboard, rankingsProp, limit, currentUserId, hasEmptyState).rows[i].ranking.userId
         == Render(leaderboard, rankingsProp, limit, currentUserId, hasEmptyState).rows[j].ranking.userId
    ensures var shown := DisplayRankings(Source(leaderboard, rankingsProp), limit);
            (forall a, b :: 0 <= a < b < |shown| ==> shown[a].userId != shown[b].userId) ==> i == j
  {
  }
}

/** A single leaderboard entry, whose medal can be forced on or off. */
module LeaderboardEntry {
  import opened Prelude
  import opened Rankings

  /** `isTopThree ?? rank <= 3`. */
  function ShowMedal(isTopThree: Option<bool>, rank: int): (b: bool)
    ensures isTopThree.Some? ==> b == isTopThree.value
    ensures isTopThree.None? ==> (b <==> rank <= 3)
  {
    isTopThree.GetOr(rank <= 3)
  }

  /** The entry's medal: only when shown, and only for ranks 1 to 3. */
  function EntryMedal(isTopThree: Option<bool>, rank: int): (m: Option<Medal>)
    ensures m.Some? <==> ShowMedal(isTopThree, rank) && 1 <= rank <= 3
    ensures m.Some? ==> m == RankMedal(rank)
  {
    if ShowMedal(isTopThree, rank) then RankMedal(rank) else None
  }

  /** Forcing the top-three style cannot give a medal outside ranks 1-3,
      and turning it off removes even first place's crown. */
  lemma OverrideBounds()
    ensures EntryMedal(Some(true), 5).None?
    ensures EntryMedal(Some(false), 1).None?
    ensures EntryMedal(None, 1) == Some(Crown)
  {
  }

  /** Unforced, the entry shows exactly the leaderboard's medal. */
  lemma DefaultMatchesBoard(rank: int)
    ensures EntryMedal(None, rank) == RankMedal(rank)
  {
  }
}

=== FILE: podium.dfy ===
/** The podium: the first three rankings of the input, laid out second,
    first, third. Only the first three entries are looked at, whatever
    ranks the later entries carry. */
module LeaderboardPodium {
  import opened Prelude
  import Text
  import opened Rankings

  /** `find`: the index of the first entry with the rank, if any. */
  function FindIndex(s: seq<Ranking>, rank: int): (r: Option<nat>)
    ensures r.Some? ==> r.value < |s| && s[r.value].rank == rank
                        && forall j :: 0 <= j < r.value ==> s[j].rank != rank
    ensures r.None? ==> forall j :: 0 <= j < |s| ==> s[j].rank != rank
  {
    if |s| == 0 then None
    else if s[0].rank == rank then Some(0)
    else
      match FindIndex(s[1..], rank)
      case None => None
      case Some(i) => Some(i + 1)
  }

  /** Some entry of `s` has the rank. */
  predicate HasRank(s: seq<Ranking>, rank: int) {
    exists j :: 0 <= j < |s| && s[j].rank == rank
  }

  lemma {:induction false} HasRankConcat(a: seq<Ranking>, b: seq<Ranking>, rank: int)
    ensures HasRank(a + b, rank) <==> HasRank(a, rank) || HasRank(b, rank)
  {
    if HasRank(a + b, rank) {
      var j :| 0 <= j < |a + b| && (a + b)[j].rank == rank;
      if j >= |a| { assert b[j - |a|] == (a + b)[j]; }
    }
    if HasRank(a, rank) {
      var j :| 0 <= j < |a| && a[j].rank == rank;
      assert (a + b)[j] == a[j];
    }
    if HasRank(b, rank) {
      var j :| 0 <= j < |b| && b[j].rank == rank;
      assert (a + b)[|a| + j] == b[j];
    }
  }

  /** The entry `find` returns, as a singleton, or nothing (`filter(Boolean)`). */
  function FoundOrNothing(s: seq<Ranking>, rank: int): (r: seq<Ranking>)
    ensures |r| <= 1
    ensures |r| == 1 <==> HasRank(s, rank)
    ensures |r| == 1 ==> r[0].rank == rank && r[0] in s
  {
    match FindIndex(s, rank)
    case None => []
    case Some(i) => [s[i]]
  }

  /** Podium slot of a rank: second place on the left, first in the middle,
      third on the right. */
  function Slot(rank: int): int {
    if rank == 2 then 0 else if rank == 1 then 1 else 2
  }

  /** The podium's entries, in display order. */
  function Podium(rankings: seq<Ranking>): (p: seq<Ranking>)
    ensures |p| <= 3
    ensures forall i :: 0 <= i < |p| ==> 1 <= p[i].rank <= 3 && p[i] in SliceTo(rankings, 3)
    ensures forall i, j :: 0 <= i < j < |p| ==> Slot(p[i].rank) < Slot(p[j].rank)
  {
    var top3 := SliceTo(rankings, 3);
    var a, b, c := FoundOrNothing(top3, 2), FoundOrNothing(top3, 1), FoundOrNothing(top3, 3);
    Arrangement(a, b, c, top3);
    a + b + c
  }

  /** At most one entry each of ranks 2, 1 and 3, concatenated in that
      order, are laid out left to right with at most three entries. */
  lemma Arrangement(a: seq<Ranking>, b: seq<Ranking>, c: seq<Ranking>, top3: seq<Ranking>)
    requires |a| <= 1 && |b| <= 1 && |c| <= 1
    requires |a| == 1 ==> a[0].rank == 2 && a[0] in top3
    requires |b| == 1 ==> b[0].rank == 1 && b[0] in top3
    requires |c| == 1 ==> c[0].rank == 3 && c[0] in top3
    ensures |a + b + c| <= 3
    ensures forall i :: 0 <= i < |a + b + c| ==> 1 <= (a + b + c)[i].rank <= 3 && (a + b + c)[i] in top3
    ensures forall i, j :: 0 <= i < j < |a + b + c| ==> Slot((a + b + c)[i].rank) < Slot((a + b + c)[j].rank)
  {
    var p := a + b + c;
    forall i | 0 <= i < |p|
      ensures p[i] == (if i < |a| then a[0] else if i < |a| + |b| then b[0] else c[0])
    {
    }
  }

  /** A rank is on the podium exactly when it is 1, 2 or 3 and one of the
      first three entries has it. */
  lemma OnPodiumIff(rankings: seq<Ranking>, rank: int)
    ensures HasRank(Podium(rankings), rank) <==> 1 <= rank <= 3 && HasRank(SliceTo(rankings, 3), rank)
  {
    var top3 := SliceTo(rankings, 3);
    var a, b, c := FoundOrNothing(top3, 2), FoundOrNothing(top3, 1), FoundOrNothing(top3, 3);
    HasRankConcat(a, b, rank);
    HasRankConcat(a + b, c, rank);
    if HasRank(a, rank) { assert a[0].rank == 2; }
    if HasRank(b, rank) { assert b[0].rank == 1; }
    if HasRank(c, rank) { assert c[0].rank == 3; }
  }

  /** Each podium entry is the first of the first three entries with its
      rank: of two entries sharing a rank, the earlier wins. */
  lemma FirstMatchWins(rankings: seq<Ranking>, i: int)
    requires 0 <= i < |Podium(rankings)|
    ensures exists j :: 0 <= j < Min(3, |rankings|) && rankings[j] == Podium(rankings)[i]
                        && forall k :: 0 <= k < j ==> rankings[k].rank != Podium(rankings)[i].rank
  {
    var top3 := SliceTo(rankings, 3);
    var x := Podium(rankings)[i];
    EntryIsFound(rankings, i);
    var j := FindIndex(top3, x.rank).value;
    assert top3[j] == x;
    assert forall k :: 0 <= k < j ==> top3[k] == rankings[k];
  }

  /** A podium entry is what `find` returns for its rank. */
  lemma EntryIsFound(rankings: seq<Ranking>, i: int)
    requires 0 <= i < |Podium(rankings)|
    ensures FindIndex(SliceTo(rankings, 3), Podium(rankings)[i].rank).Some?
    ensures SliceTo(rankings, 3)[FindIndex(SliceTo(rankings, 3), Podium(rankings)[i].rank).value] == Podium(rankings)[i]
  {
    var top3 := SliceTo(rankings, 3);
    var a, b, c := FoundOrNothing(top3, 2), FoundOrNothing(top3, 1), FoundOrNothing(top3, 3);
    var p := Podium(rankings);
    assert p == a + b + c;
    if i < |a| { assert p[i] == a[0]; }
    else if i < |a| + |b| { assert p[i] == b[0]; }
    else { assert p[i] == c[0]; }
  }

  /** The podium is empty iff none of the first three entries has rank 1, 2
      or 3; then nothing is rendered. */
  lemma EmptyPodium(rankings: seq<Ranking>)
    ensures Podium(rankings) == [] <==>
              !HasRank(SliceTo(rankings, 3), 1) && !HasRank(SliceTo(rankings, 3), 2) && !HasRank(SliceTo(rankings, 3), 3)
  {
    OnPodiumIff(rankings, 1);
    OnPodiumIff(rankings, 2);
    OnPodiumIff(rankings, 3);
    var p := Podium(rankings);
    if p != [] {
      assert HasRank(p, p[0].rank);
    }
  }

  /** A leader listed fourth or later never reaches the podium when the
      first three entries hold no rank 1. */
  lemma LateLeaderIsMissed(a: Ranking, b: Ranking, c: Ranking, leader: Ranking)
    requires a.rank == 2 && b.rank == 3 && c.rank == 4 && leader.rank == 1
    ensures Podium([a, b, c, leader]) == [a, b]
  {
    var s := [a, b, c, leader];
    assert SliceTo(s, 3) == [a, b, c];
    assert FindIndex([a, b, c], 2) == Some(0);
    assert FindIndex([a, b, c], 3) == Some(1);
    assert FindIndex([a, b, c], 1) == None;
  }

  /** The entry's accessible label: `Rank r: name`, followed by the formatted
      value when values are shown. */
  function ItemLabel(r: Ranking, showValue: bool, formatted: string): (s: string)
    ensures "Rank " + Text.IntToString(r.rank) + ": " + DisplayName(r) <= s
    ensures !showValue ==> s == "Rank " + Text.IntToString(r.rank) + ": " + DisplayName(r)
    ensures showValue ==> s == "Rank " + Text.IntToString(r.rank) + ": " + DisplayName(r) + ", " + formatted
  {
    "Rank " + Text.IntToString(r.rank) + ": " + DisplayName(r) + (if showValue then ", " + formatted else "")
  }
}

=== FILE: points.dfy ===
/** The points display: icon, shown total, recent awards and the status
    label. */
module PointsDisplay {
  import opened Prelude
  import Text

  datatype PointsAward = PointsAward(id: string, awarded: int, total: int, metricName: Option<string>)

  datatype Points = Points(name: string, badgeUrl: Option<string>, total: int, awards: seq<PointsAward>)

  datatype IconType = Xp | PointsIcon | Credits | DefaultIcon

  /** The icons: the caller's own, or the one mapped from the icon type. */
  datatype Icon = CustomIcon | Zap | Star | Gift | Award

  function MappedIcon(t: IconType): Icon {
    match t
    case Xp => Zap
    case PointsIcon => Star
    case Credits => Gift
    case DefaultIcon => Award
  }

  /** `CustomIcon ?? iconMap[iconType]`, with `iconType` defaulting to
      `default`. */
  function ChosenIcon(hasCustomIcon: bool, iconType: Option<IconType>): (i: Icon)
    ensures hasCustomIcon <==> i == CustomIcon
    ensures !hasCustomIcon ==> i == MappedIcon(iconType.GetOr(DefaultIcon))
  {
    if hasCustomIcon then CustomIcon else MappedIcon(iconType.GetOr(DefaultIcon))
  }

  /** Distinct icon types map to distinct icons. */
  lemma MappedIconInjective(a: IconType, b: IconType)
    requires MappedIcon(a) == MappedIcon(b)
    ensures a == b
  {
  }

  /** The badge image replaces the icon when badges are shown and the points
      system has a non-empty badge URL. */
  predicate ShowsBadgeImage(p: Points, showBadge: bool) {
    showBadge && p.badgeUrl.Some? && p.badgeUrl.value != ""
  }

  /** The shown total: the caller's formatter when given, otherwise the
      locale format (a parameter here, since it depends on the locale). */
  function DisplayValue(total: int, formatValue: Option<int -> string>, localeFormat: int -> string): (s: string)
    ensures formatValue.Some? ==> s == formatValue.value(total)
    ensures formatValue.None? ==> s == localeFormat(total)
  {
    match formatValue
    case Some(f) => f(total)
    case None => localeFormat(total)
  }

  /** `showRecentAwards ? awards.slice(0, showRecentAwards) : []`. */
  function RecentAwards(awards: seq<PointsAward>, showRecentAwards: Option<int>): (r: seq<PointsAward>)
    ensures r <= awards
    ensures !Truthy(showRecentAwards) ==> r == []
    ensures Truthy(showRecentAwards) && showRecentAwards.value > 0 ==> |r| == Min(showRecentAwards.value, |awards|)
  {
    if Truthy(showRecentAwards) then SliceTo(awards, showRecentAwards.value) else []
  }

  /** `, k recent award(s)`, empty when there are none. */
  function AwardsSuffix(k: nat): (s: string)
    ensures k == 0 <==> s == ""
    ensures k == 1 ==> s == ", 1 recent award"
    ensures k > 1 ==> s == ", " + Text.NatToString(k) + " recent awards"
  {
    if k > 0 then ", " + Text.NatToString(k) + " recent award" + (if k > 1 then "s" else "") else ""
  }

  /** The status label: the shown value, the points name, then the awards
      suffix. */
  function StatusLabel(displayValue: string, p: Points, showRecentAwards: Option<int>): (s: string)
    ensures displayValue + " " + p.name <= s
    ensures s == displayValue + " " + p.name + AwardsSuffix(|RecentAwards(p.awards, showRecentAwards)|)
    ensures |RecentAwards(p.awards, showRecentAwards)| == 0 ==> s == displayValue + " " + p.name
  {
    displayValue + " " + p.name + AwardsSuffix(|RecentAwards(p.awards, showRecentAwards)|)
  }

  /** One award shown is counted in the singular. */
  lemma LabelOneAward(displayValue: string, p: Points)
    requires |p.awards| >= 1
    ensures StatusLabel(displayValue, p, Some(1)) == displayValue + " " + p.name + ", 1 recent award"
  {
  }

  /** The label counts the awards it lists: the suffix names how many. */
  lemma LabelCountsAwards(displayValue: string, p: Points, n: int)
    requires n > 1 && |p.awards| > 1
    ensures StatusLabel(displayValue, p, Some(n))
         == displayValue + " " + p.name + ", " + Text.NatToString(Min(n, |p.awards|)) + " recent awards"
  {
  }

  /** The chip of one recent award: `+awarded`, then the metric name when it
      is non-empty. */
  datatype AwardChip = AwardChip(amount: string, metricName: Option<string>)

  function ChipFor(a: PointsAward): (c: AwardChip)
    ensures c.amount == "+" + Text.IntToString(a.awarded)
    ensures c.metricName.Some? <==> a.metricName.Some? && a.metricName.value != ""
  {
    AwardChip("+" + Text.IntToString(a.awarded),
              if a.metricName.Some? && a.metricName.value != "" then a.metricName else None)
  }
}

/** The floating "+N" animation and the hook's queue of pending animations.
    Ids are passed in (the hook draws them from the clock and a random
    number); an item leaves the queue only through `remove` or `clear`. */
module PointsAnimation {
  import opened Prelude
  import Text

  /** An animation item; its colour, variant, size and position are styling
      and left out. */
  datatype Item = Item(id: string, value: int, prefix: Option<string>, suffix: Option<string>)

  /** The hook's options after defaulting. */
  datatype Settings = Settings(duration: int, maxItems: int)

  const DefaultDuration: int := 1000
  const DefaultMaxItems: int := 10

  function SettingsOf(duration: Option<int>, maxItems: Option<int>): (s: Settings)
    ensures duration.None? ==> s.duration == DefaultDuration
    ensures maxItems.None? ==> s.maxItems == DefaultMaxItems
    ensures duration.Some? ==> s.duration == duration.value
    ensures maxItems.Some? ==> s.maxItems == maxItems.value
  {
    Settings(duration.GetOr(DefaultDuration), maxItems.GetOr(DefaultMaxItems))
  }

  /** `trigger`: append the new item, keep the newest `maxItems`
      (`slice(-maxItems)`), and hand back the item's id. */
  function Trigger(q: seq<Item>, maxItems: int, id: string, value: int,
                   prefix: Option<string>, suffix: Option<string>): (r: (seq<Item>, string))
    ensures r.1 == id
    ensures maxItems >= 1 ==> r.0 == q[|q| - Min(maxItems - 1, |q|)..] + [Item(id, value, prefix, suffix)]
    ensures maxItems == 0 ==> r.0 == q + [Item(id, value, prefix, suffix)]
  {
    var item := Item(id, value, prefix, suffix);
    if maxItems >= 1 then NewestWindow(q, item, maxItems); (SliceFrom(q + [item], -maxItems), id)
    else (SliceFrom(q + [item], -maxItems), id)
  }

  /** The newest `m` items after appending `x` are the newest `m - 1` before
      it, then `x`. */
  lemma NewestWindow(q: seq<Item>, x: Item, m: int)
    requires m >= 1
    ensures SliceFrom(q + [x], -m) == q[|q| - Min(m - 1, |q|)..] + [x]
  {
    var a := SliceFrom(q + [x], -m);
    var b := q[|q| - Min(m - 1, |q|)..] + [x];
    assert |a| == |b|;
    forall i | 0 <= i < |a| ensures a[i] == b[i] {
      assert a[i] == (q + [x])[|q| + 1 - |a| + i];
    }
  }

  /** `remove`: drop every item with the id, keeping the others in order. */
  function Remove(q: seq<Item>, id: string): (r: seq<Item>)
    ensures |r| <= |q|
  {
    if |q| == 0 then []
    else (if q[0].id != id then [q[0]] else []) + Remove(q[1..], id)
  }

  /** After `remove`, exactly the items with other ids are left. */
  lemma {:induction false} RemoveMembers(q: seq<Item>, id: string)
    ensures forall x :: x in Remove(q, id) <==> x in q && x.id != id
  {
    if |q| > 0 {
      RemoveMembers(q[1..], id);
      assert q == [q[0]] + q[1..];
    }
  }

  /** `clear`. */
  function Clear(): (r: seq<Item>)
    ensures |r| == 0
  {
    []
  }

  /** How many items carry the id. */
  function CountId(q: seq<Item>, id: string): nat {
    if |q| == 0 then 0 else (if q[0].id == id then 1 else 0) + CountId(q[1..], id)
  }

  /** Removing shortens the queue by exactly the items with the id. */
  lemma {:induction false} RemoveCount(q: seq<Item>, id: string)
    ensures |Remove(q, id)| == |q| - CountId(q, id)
  {
    if |q| > 0 {
      RemoveCount(q[1..], id);
    }
  }

  /** Removing an id that is not queued changes nothing. */
  lemma {:induction false} RemoveAbsent(q: seq<Item>, id: string)
    requires forall x :: x in q ==> x.id != id
    ensures Remove(q, id) == q
  {
    if |q| > 0 {
      assert q[0] in q;
      RemoveAbsent(q[1..], id);
      assert q == [q[0]] + q[1..];
    }
  }

  /** Removing twice is removing once. */
  lemma RemoveIdempotent(q: seq<Item>, id: string)
    ensures Remove(Remove(q, id), id) == Remove(q, id)
  {
    RemoveMembers(q, id);
    RemoveAbsent(Remove(q, id), id);
  }

  /** Removing one id leaves the other items, in their order: removing two
      ids gives the same queue in either order. */
  lemma {:induction false} RemoveCommutes(q: seq<Item>, a: string, b: string)
    ensures Remove(Remove(q, a), b) == Remove(Remove(q, b), a)
  {
    if |q| > 0 {
      RemoveCommutes(q[1..], a, b);
      var x, rest := q[0], q[1..];
      assert q == [x] + rest;
      var ra, rb := Remove(rest, a), Remove(rest, b);
      RemoveHead(x, rest, a);
      RemoveHead(x, rest, b);
      if x.id == a {
        assert Remove(q, a) == ra;
        if x.id != b {
          RemoveHead(x, rb, a);
          assert Remove([x] + rb, a) == Remove(rb, a);
        }
      } else if x.id == b {
        assert Remove(q, b) == rb;
        RemoveHead(x, ra, b);
        assert Remove([x] + ra, b) == Remove(ra, b);
      } else {
        RemoveHead(x, ra, b);
        RemoveHead(x, rb, a);
      }
    }
  }

  /** Removing never reorders the items that stay. */
  lemma {:induction false} RemoveKeepsOrder(q: seq<Item>, id: string)
    ensures IsSubsequence(Remove(q, id), q)
  {
    if |q| > 0 {
      RemoveKeepsOrder(q[1..], id);
      var rest := Remove(q[1..], id);
      RemoveHead(q[0], q[1..], id);
      assert q == [q[0]] + q[1..];
      if q[0].id != id {
        assert ([q[0]] + rest)[1..] == rest;
      } else {
        assert Remove(q, id) == rest;
        RemoveMembers(q[1..], id);
        if |rest| > 0 {
          assert rest[0] in rest;
          assert rest[0] != q[0];
        }
      }
    }
  }

  lemma {:induction false} RemoveAppend(q: seq<Item>, x: Item, id: string)
    ensures Remove(q + [x], id) == Remove(q, id) + (if x.id != id then [x] else [])
  {
    if |q| > 0 {
      var h, t := q[0], q[1..];
      var hd := if h.id != id then [h] else [];
      var xs := if x.id != id then [x] else [];
      RemoveAppend(t, x, id);
      assert q + [x] == [h] + (t + [x]);
      RemoveHead(h, t + [x], id);
      assert Remove(q + [x], id) == hd + (Remove(t, id) + xs);
      assert q == [h] + t;
      RemoveHead(h, t, id);
      assert Remove(q, id) == hd + Remove(t, id);
      assert hd + (Remove(t, id) + xs) == (hd + Remove(t, id)) + xs;
    } else {
      RemoveSingle(x, id);
      assert q + [x] == [x];
    }
  }

  lemma RemoveSingle(x: Item, id: string)
    ensures Remove([x], id) == (if x.id != id then [x] else [])
  {
    assert [x][1..] == [];
  }

  /** Below capacity, removing a freshly triggered item undoes the trigger. */
  lemma TriggerThenRemove(q: seq<Item>, maxItems: int, id: string, value: int,
                          prefix: Option<string>, suffix: Option<string>)
    requires maxItems == 0 || |q| < maxItems
    requires forall x :: x in q ==> x.id != id
    ensures Remove(Trigger(q, maxItems, id, value, prefix, suffix).0, id) == q
  {
    var item := Item(id, value, prefix, suffix);
    assert SliceFrom(q + [item], -maxItems) == q + [item];
    RemoveAppend(q, item, id);
    RemoveAbsent(q, id);
  }

  lemma RemoveHead(x: Item, rest: seq<Item>, id: string)
    ensures Remove([x] + rest, id) == (if x.id != id then [x] else []) + Remove(rest, id)
  {
    assert ([x] + rest)[1..] == rest;
  }

  /** Triggering every item of `values` in turn, from `q`. */
  function TriggerAll(q: seq<Item>, maxItems: int, items: seq<Item>): seq<Item>
    decreases |items|
  {
    if |items| == 0 then q
    else
      var x := items[0];
      TriggerAll(Trigger(q, maxItems, x.id, x.value, x.prefix, x.suffix).0, maxItems, items[1..])
  }

  /** A sliding window: from an empty queue, any run of triggers leaves the
      newest `maxItems` items, oldest first, so the oldest are evicted first. */
  lemma {:induction false} TriggerAllIsWindow(q: seq<Item>, m: int, items: seq<Item>)
    requires m >= 1
    requires |q| <= m
    ensures TriggerAll(q, m, items) == SliceFrom(q + items, -m)
    decreases |items|
  {
    if |items| == 0 {
      WindowOfShort(q + items, m);
    } else {
      var x, rest := items[0], items[1..];
      var q1 := SliceFrom(q + [x], -m);
      TriggerAllStep(q, m, items);
      TriggerAllIsWindow(q1, m, rest);
      WindowAppend(q + [x], rest, m);
      ConsAppend(q, x, rest, items);
    }
  }

  /** One step of `TriggerAll`: trigger the first item, then the rest. */
  lemma TriggerAllStep(q: seq<Item>, m: int, items: seq<Item>)
    requires |items| > 0
    ensures TriggerAll(q, m, items) == TriggerAll(SliceFrom(q + [items[0]], -m), m, items[1..])
  {
  }

  /** A queue within the bound is its own window. */
  lemma WindowOfShort(q: seq<Item>, m: int)
    requires |q| <= m
    ensures SliceFrom(q, -m) == q
  {
  }

  lemma ConsAppend(q: seq<Item>, x: Item, rest: seq<Item>, items: seq<Item>)
    requires |items| > 0 && x == items[0] && rest == items[1..]
    ensures q + [x] + rest == q + items
  {
    assert items == [x] + rest;
  }

  lemma WindowAppend(s: seq<Item>, t: seq<Item>, m: int)
    requires m >= 1
    ensures SliceFrom(SliceFrom(s, -m) + t, -m) == SliceFrom(s + t, -m)
  {
    var w := SliceFrom(s, -m);
    var a := SliceFrom(w + t, -m);
    var b := SliceFrom(s + t, -m);
    assert |a| == |b|;
    forall i | 0 <= i < |a| ensures a[i] == b[i] {
      var k := |w| + |t| - |a| + i;
      assert a[i] == (w + t)[k];
      assert b[i] == (s + t)[|s| - |w| + k];
      if k < |w| {
        assert (w + t)[k] == w[k] == s[|s| - |w| + k];
      }
    }
  }

  /** Twelve triggers into the default ten keep the last ten. */
  lemma TwelveIntoTen(items: seq<Item>)
    requires |items| == 12
    ensures TriggerAll([], DefaultMaxItems, items) == items[2..]
  {
    var empty: seq<Item> := [];
    TriggerAllIsWindow(empty, DefaultMaxItems, items);
    assert empty + items == items;
    assert SliceFrom(items, -10) == items[2..];
  }

  /** With `maxItems` 0, `slice(-0)` keeps everything: the queue is unbounded. */
  lemma ZeroMaxKeepsAll(q: seq<Item>, items: seq<Item>)
    ensures TriggerAll(q, 0, items) == q + items
    decreases |items|
  {
    if |items| > 0 {
      ZeroMaxKeepsAll(q + [items[0]], items[1..]);
      assert q + [items[0]] + items[1..] == q + items;
    } else {
      assert q + items == q;
    }
  }

  /** The animation's text: prefix (default `+`), value and suffix (default
      empty); a negative value keeps its own minus sign and drops the
      prefix. */
  function DisplayText(value: int, prefix: Option<string>, suffix: Option<string>): (s: string)
    ensures value >= 0 ==> s == prefix.GetOr("+") + Text.NatToString(value) + suffix.GetOr("")
    ensures value < 0 ==> s == "-" + Text.NatToString(-value) + suffix.GetOr("")
  {
    if value >= 0 then prefix.GetOr("+") + Text.IntToString(value) + suffix.GetOr("")
    else Text.IntToString(value) + suffix.GetOr("")
  }

  /** With the defaults the sign shows whether points were won or lost and
      the digits give back the amount. */
  lemma DefaultTextRoundTrip(value: int)
    ensures var s := DisplayText(value, None, None);
            |s| >= 2 && (s[0] == '+' <==> value >= 0) && (s[0] == '-' <==> value < 0)
            && Text.AllDigits(s[1..])
            && Text.ParseDigits(s[1..]) == (if value < 0 then -value else value)
  {
    var s := DisplayText(value, None, None);
    if value >= 0 {
      assert s == ['+'] + Text.NatToString(value) + "";
      SignedDigits('+', value);
    } else {
      assert s == ['-'] + Text.NatToString(-value) + "";
      SignedDigits('-', -value);
    }
  }

  lemma SignedDigits(sign: char, n: nat)
    ensures var s := [sign] + Text.NatToString(n) + "";
            |s| >= 2 && s[0] == sign && Text.AllDigits(s[1..]) && Text.ParseDigits(s[1..]) == n
  {
    var s := [sign] + Text.NatToString(n) + "";
    assert s[1..] == Text.NatToString(n);
    Text.ParseNatToString(n);
  }
}

=== FILE: prelude.dfy ===
/** Small vocabulary shared by every widget model: optional values (the
    source's `null`/`undefined`), the `??` and `||` fallbacks, and the two
    forms of `Array.prototype.slice` the widgets use. */
module Prelude {

  /** An optional value: `None` stands for `null` or `undefined`. */
  datatype Option<+T> = None | Some(value: T) {

    /** The `??` operator: the value when present, the fallback otherwise. */
    function GetOr(fallback: T): (r: T)
      ensures Some? ==> r == value
      ensures None? ==> r == fallback
    {
      match this
      case Some(v) => v
      case None => fallback
    }
  }

  /** A number option is truthy when present and non-zero (`NaN` is not modelled). */
  predicate Truthy(n: Option<int>) {
    n.Some? && n.value != 0
  }

  /** The `||` fallback on a nullable string: `null` and `""` are both falsy. */
  function OrString(s: Option<string>, fallback: string): (r: string)
    ensures s.Some? && s.value != "" ==> r == s.value
    ensures s.None? || s.value == "" ==> r == fallback
  {
    if s.Some? && s.value != "" then s.value else fallback
  }

  function Min(a: int, b: int): int { if a <= b then a else b }

  function Max(a: int, b: int): int { if a >= b then a else b }

  /** `s.slice(0, end)`: a non-negative end keeps that many leading items,
      a negative end drops that many trailing items. */
  function SliceTo<T>(s: seq<T>, end: int): (r: seq<T>)
    ensures end >= 0 ==> |r| == Min(end, |s|)
    ensures end < 0 ==> |r| == Max(0, |s| + end)
    ensures r <= s
  {
    if end >= 0 then s[..Min(end, |s|)] else s[..Max(0, |s| + end)]
  }

  /** `s.slice(start)`: a negative start keeps that many trailing items,
      a non-negative start drops that many leading items. Note that
      `slice(-0)` is `slice(0)`, the whole sequence. */
  function SliceFrom<T>(s: seq<T>, start: int): (r: seq<T>)
    ensures start < 0 ==> |r| == Min(-start, |s|)
    ensures start >= 0 ==> |r| == Max(0, |s| - start)
    ensures forall i :: 0 <= i < |r| ==> r[i] == s[|s| - |r| + i]
  {
    if start < 0 then s[Max(0, |s| + start)..] else s[Min(start, |s|)..]
  }

  /** `a` occurs in `b` in order, possibly with gaps. */
  predicate IsSubsequence<T(==)>(a: seq<T>, b: seq<T>)
    decreases |b|
  {
    if |a| == 0 then true
    else if |b| == 0 then false
    else if a[0] == b[0] then IsSubsequence(a[1..], b[1..])
    else IsSubsequence(a, b[1..])
  }

  /** `s.endsWith(t)`. */
  predicate EndsWith<T(==)>(s: seq<T>, t: seq<T>) {
    |t| <= |s| && s[|s| - |t|..] == t
  }

  /** The last `k` elements of a concatenation come from its second part
      when that part is long enough. */
  lemma SuffixOfConcat<T>(h: seq<T>, t: seq<T>, k: nat)
    requires k <= |t|
    ensures (h + t)[|h + t| - k..] == t[|t| - k..]
  {
  }

  /** Every sequence occurs in itself. */
  lemma {:induction false} SubsequenceOfItself<T>(s: seq<T>)
    ensures IsSubsequence(s, s)
    decreases |s|
  {
    if |s| > 0 {
      SubsequenceOfItself(s[1..]);
    }
  }

  lemma AppendAssoc<T>(a: seq<T>, b: seq<T>, c: seq<T>)
    ensures a + (b + c) == (a + b) + c
  {
  }
}

=== FILE: streak_calendar.dfy ===
/** The streak calendar widget's derivations: which days of a month fall in a
    streak period, which used a freeze, how many blank cells precede the 1st,
    and the status of each day cell. */
module StreakCalendar {
  import opened Prelude
  import Text
  import Dates
  import opened Streaks

  /** `isDateInPeriod`: the day's `YYYY-MM-DD` text lies between the period's
      bounds, both inclusive, under string comparison. */
  predicate IsDateInPeriod(date: Dates.Date, p: StreakPeriod)
    requires Dates.IsoDatable(date)
  {
    var d := Dates.IsoDate(date);
    Text.Compare(d, p.periodStart) >= 0 && Text.Compare(d, p.periodEnd) <= 0
  }

  /** For periods whose bounds are ISO dates, membership is the inclusive
      calendar range. */
  lemma InPeriodIsDateRange(date: Dates.Date, p: StreakPeriod, start: Dates.Date, end: Dates.Date)
    requires Dates.IsoDatable(date) && Dates.IsoDatable(start) && Dates.IsoDatable(end)
    requires p.periodStart == Dates.IsoDate(start) && p.periodEnd == Dates.IsoDate(end)
    ensures IsDateInPeriod(date, p) <==> Dates.DateLe(start, date) && Dates.DateLe(date, end)
  {
    Dates.IsoDateOrder(date, start);
    Dates.IsoDateOrder(date, end);
    Dates.CompareDatesFlip(date, start);
  }

  /** A period from the 5th to the 8th of March 2024 covers exactly those
      four days of March. */
  lemma MarchExample(p: StreakPeriod, day: int)
    requires p.periodStart == "2024-03-05" && p.periodEnd == "2024-03-08"
    requires 1 <= day <= 31
    ensures IsDateInPeriod(Dates.Date(2024, 3, day), p) <==> 5 <= day <= 8
  {
    var start, end := Dates.Date(2024, 3, 5), Dates.Date(2024, 3, 8);
    MarchBounds();
    InPeriodIsDateRange(Dates.Date(2024, 3, day), p, start, end);
  }

  lemma MarchBounds()
    ensures Dates.IsoDate(Dates.Date(2024, 3, 5)) == "2024-03-05"
    ensures Dates.IsoDate(Dates.Date(2024, 3, 8)) == "2024-03-08"
  {
    assert Text.Fixed(2, 1) == "2";
    assert Text.Fixed(20, 2) == "20";
    assert Text.Fixed(202, 3) == "202";
    assert Text.Fixed(2024, 4) == "2024";
    assert Text.Fixed(0, 1) == "0";
    assert Text.Fixed(3, 2) == "03";
    assert Text.Fixed(5, 2) == "05";
    assert Text.Fixed(8, 2) == "08";
  }

  /** `wasDateActive`: some period of the history contains the day; the order
      of the history does not matter. */
  function WasDateActive(date: Dates.Date, periods: seq<StreakPeriod>): (r: bool)
    requires Dates.IsoDatable(date)
    ensures r <==> exists p :: p in periods && IsDateInPeriod(date, p)
  {
    if |periods| == 0 then false
    else IsDateInPeriod(date, periods[0]) || WasDateActive(date, periods[1..])
  }

  /** `didUseFreezeOnDate`: some period containing the day used a freeze;
      such a day is always an active day. */
  function DidUseFreezeOnDate(date: Dates.Date, periods: seq<StreakPeriod>): (r: bool)
    requires Dates.IsoDatable(date)
    ensures r <==> exists p :: p in periods && IsDateInPeriod(date, p) && p.usedFreeze
    ensures r ==> WasDateActive(date, periods)
  {
    if |periods| == 0 then false
    else (IsDateInPeriod(date, periods[0]) && periods[0].usedFreeze)
         || DidUseFreezeOnDate(date, periods[1..])
  }

  /** `startOfWeek`: 0 is Sunday-first, 1 is Monday-first. */
  datatype WeekStart = SundayFirst | MondayFirst

  /** `getDaysInMonth` for a 0-based month index. */
  function DaysInMonth(year: int, monthIndex: int): (n: int)
    requires 0 <= monthIndex < 12
    ensures 28 <= n <= 31
    ensures n == Dates.DaysInMonth(year, monthIndex + 1)
  {
    Dates.DaysInMonth(year, monthIndex + 1)
  }

  /** `getFirstDayOfMonth`: the weekday (0 = Sunday) of the 1st. */
  function FirstDayOfMonth(year: int, monthIndex: int): (w: int)
    requires 0 <= monthIndex < 12
    ensures 0 <= w < 7
    ensures w == Dates.Weekday(year, monthIndex + 1, 1)
  {
    Dates.Weekday(year, monthIndex + 1, 1)
  }

  /** The number of blank cells before the 1st (`adjustedFirstDay`). */
  function LeadingBlanks(year: int, monthIndex: int, startOfWeek: WeekStart): (n: int)
    requires 0 <= monthIndex < 12
    ensures 0 <= n < 7
    ensures startOfWeek == SundayFirst ==> n == FirstDayOfMonth(year, monthIndex)
    ensures startOfWeek == MondayFirst ==> (n + 1) % 7 == FirstDayOfMonth(year, monthIndex)
  {
    var first := FirstDayOfMonth(year, monthIndex);
    if startOfWeek == MondayFirst then (first + 6) % 7 else first
  }

  /** The column (0 = the week's first day) in which weekday `w` appears. */
  function ColumnOf(w: int, startOfWeek: WeekStart): int {
    if startOfWeek == MondayFirst then (w + 6) % 7 else w
  }

  /** Every day of the month lands in the column of its own weekday: the grid
      position `blanks + day - 1` taken modulo 7 is that weekday's column. */
  lemma DayLandsInItsWeekdayColumn(year: int, monthIndex: int, startOfWeek: WeekStart, day: int)
    requires 0 <= monthIndex < 12 && 1 <= day <= DaysInMonth(year, monthIndex)
    ensures (LeadingBlanks(year, monthIndex, startOfWeek) + day - 1) % 7
            == ColumnOf(Dates.Weekday(year, monthIndex + 1, day), startOfWeek)
  {
    var x := Dates.DaysFromCivil(year, monthIndex + 1, 1) + 4;
    assert Dates.DaysFromCivil(year, monthIndex + 1, day) + 4 == x + day - 1;
    assert LeadingBlanks(year, monthIndex, startOfWeek) == ColumnOf(x % 7, startOfWeek);
    ColumnShift(x, day - 1, startOfWeek);
  }

  /** Shifting a weekday by `k` days shifts its column by `k`, modulo 7. */
  lemma ColumnShift(x: int, k: int, startOfWeek: WeekStart)
    ensures (ColumnOf(x % 7, startOfWeek) + k) % 7 == ColumnOf((x + k) % 7, startOfWeek)
  {
    if startOfWeek == MondayFirst {
      ModShift(x % 7 + 6, k);
      ModShift(x, 6 + k);
      ModShift(x + k, 6);
      assert x % 7 + 6 + k == x % 7 + (6 + k);
      assert x + (6 + k) == x + k + 6;
    } else {
      ModShift(x, k);
    }
  }

  lemma ModShift(x: int, k: int)
    ensures (x % 7 + k) % 7 == (x + k) % 7
  {
    var q := x / 7;
    assert x == 7 * q + x % 7;
    assert x + k == 7 * q + (x % 7 + k);
  }

  /** The 1st of the next month falls on the weekday after this month's last
      day. */
  lemma NextFirstDay(year: int, monthIndex: int)
    requires 0 <= monthIndex < 12
    ensures var nextYear := if monthIndex == 11 then year + 1 else year;
            var nextIndex := if monthIndex == 11 then 0 else monthIndex + 1;
            FirstDayOfMonth(nextYear, nextIndex)
            == (FirstDayOfMonth(year, monthIndex) + DaysInMonth(year, monthIndex)) % 7
  {
    Dates.FirstOfNextMonth(year, monthIndex + 1);
    ModShift(Dates.DaysFromCivil(year, monthIndex + 1, 1) + 4, DaysInMonth(year, monthIndex));
  }

  /** The next month's grid starts in the column right after this month's
      last day. */
  lemma NextMonthContinues(year: int, monthIndex: int, startOfWeek: WeekStart)
    requires 0 <= monthIndex < 12
    ensures var nextYear := if monthIndex == 11 then year + 1 else year;
            var nextIndex := if monthIndex == 11 then 0 else monthIndex + 1;
            LeadingBlanks(nextYear, nextIndex, startOfWeek)
            == (LeadingBlanks(year, monthIndex, startOfWeek) + DaysInMonth(year, monthIndex)) % 7
  {
    NextFirstDay(year, monthIndex);
    var f := FirstDayOfMonth(year, monthIndex);
    var n := DaysInMonth(year, monthIndex);
    if startOfWeek == MondayFirst {
      ModShift(f + n, 6);
      ModShift(f + 6, n);
    }
  }

  /** The day list: `blanks` empty cells, then the days 1 to the month's
      length in order, with no trailing padding. */
  method BuildGrid(year: int, monthIndex: int, startOfWeek: WeekStart) returns (days: seq<Option<int>>)
    requires 0 <= monthIndex < 12
    ensures |days| == LeadingBlanks(year, monthIndex, startOfWeek) + DaysInMonth(year, monthIndex)
    ensures forall i :: 0 <= i < LeadingBlanks(year, monthIndex, startOfWeek) ==> days[i] == None
    ensures forall i :: LeadingBlanks(year, monthIndex, startOfWeek) <= i < |days| ==>
              days[i] == Some(i - LeadingBlanks(year, monthIndex, startOfWeek) + 1)
  {
    days := Layout(LeadingBlanks(year, monthIndex, startOfWeek), DaysInMonth(year, monthIndex));
  }

  /** `blanks` empty cells followed by the days 1 to `n`. */
  method Layout(blanks: nat, n: nat) returns (days: seq<Option<int>>)
    ensures |days| == blanks + n
    ensures forall i :: 0 <= i < blanks ==> days[i] == None
    ensures forall i :: blanks <= i < |days| ==> days[i] == Some(i - blanks + 1)
  {
    days := [];
    var i := 0;
    while i < blanks
      invariant 0 <= i <= blanks
      invariant |days| == i
      invariant forall j :: 0 <= j < i ==> days[j] == None
    {
      days := days + [None];
      i := i + 1;
    }
    var day := 1;
    while day <= n
      invariant 1 <= day <= n + 1
      invariant |days| == blanks + day - 1
      invariant forall j :: 0 <= j < blanks ==> days[j] == None
      invariant forall j :: blanks <= j < |days| ==> days[j] == Some(j - blanks + 1)
    {
      days := days + [Some(day)];
      day := day + 1;
    }
  }

  /** The accessible status of a day, in precedence order. */
  datatype DayStatus = FreezeUsed | StreakActive | FutureDay | NoActivity

  function StatusLabel(s: DayStatus): string {
    match s
    case FreezeUsed => "freeze used"
    case StreakActive => "streak active"
    case FutureDay => "future"
    case NoActivity => "no activity"
  }

  /** The facts rendered for one day of the month. A future day is disabled. */
  datatype DayCell = DayCell(day: int, isToday: bool, isFuture: bool, isActive: bool, usedFreeze: bool, status: DayStatus) {
    predicate Disabled() { isFuture }
  }

  /** Freeze used beats streak active, which beats future, which beats no
      activity. */
  function Status(usedFreeze: bool, isActive: bool, isFuture: bool): (s: DayStatus)
    ensures s == FreezeUsed <==> usedFreeze
    ensures s == StreakActive <==> !usedFreeze && isActive
    ensures s == FutureDay <==> !usedFreeze && !isActive && isFuture
    ensures s == NoActivity <==> !usedFreeze && !isActive && !isFuture
  {
    if usedFreeze then FreezeUsed
    else if isActive then StreakActive
    else if isFuture then FutureDay
    else NoActivity
  }

  /** The cell of `day` in the displayed month, given today's date. */
  function CellFor(year: int, monthIndex: int, day: int, today: Dates.Date,
                   periods: seq<StreakPeriod>, showFreezes: bool): (c: DayCell)
    requires Dates.IsoYear(year) && 0 <= monthIndex < 12 && 1 <= day <= DaysInMonth(year, monthIndex)
    ensures c.day == day
    ensures c.isToday <==> Dates.CompareDates(Dates.Date(year, monthIndex + 1, day), today) == 0
    ensures c.isFuture <==> Dates.CompareDates(Dates.Date(year, monthIndex + 1, day), today) > 0
    ensures c.isActive <==> exists p :: p in periods && IsDateInPeriod(Dates.Date(year, monthIndex + 1, day), p)
    ensures c.usedFreeze <==> showFreezes && DidUseFreezeOnDate(Dates.Date(year, monthIndex + 1, day), periods)
    ensures c.status == Status(c.usedFreeze, c.isActive, c.isFuture)
    ensures c.usedFreeze ==> showFreezes && c.isActive
    ensures !showFreezes ==> !c.usedFreeze
    ensures !(c.isToday && c.isFuture)
    ensures c.status == FreezeUsed ==> c.isActive
    ensures c.status == FutureDay ==> c.Disabled()
  {
    var date := Dates.Date(year, monthIndex + 1, day);
    var cmp := Dates.CompareDates(date, today);
    var isActive := WasDateActive(date, periods);
    var usedFreeze := showFreezes && DidUseFreezeOnDate(date, periods);
    DayCell(day, cmp == 0, cmp > 0, isActive, usedFreeze, Status(usedFreeze, isActive, cmp > 0))
  }

  /** Today's cell is marked today and stays enabled; a later day without
      history is a disabled future day; an earlier day without history shows
      no activity. */
  lemma CellAgainstToday(year: int, monthIndex: int, day: int, today: Dates.Date,
                         periods: seq<StreakPeriod>, showFreezes: bool)
    requires Dates.IsoYear(year) && 0 <= monthIndex < 12 && 1 <= day <= DaysInMonth(year, monthIndex)
    requires forall p :: p in periods ==> !IsDateInPeriod(Dates.Date(year, monthIndex + 1, day), p)
    ensures var c := CellFor(year, monthIndex, day, today, periods, showFreezes);
            var date := Dates.Date(year, monthIndex + 1, day);
            (date == today ==> c.isToday && !c.Disabled() && c.status == NoActivity)
            && (Dates.CompareDates(date, today) > 0 ==> c.Disabled() && c.status == FutureDay)
            && (Dates.CompareDates(date, today) < 0 ==> !c.Disabled() && c.status == NoActivity)
  {
  }

  /** The grid position `i`: a blank before the 1st, else the cell of its day. */
  function GridCell(year: int, monthIndex: int, startOfWeek: WeekStart, i: int, today: Dates.Date,
                    periods: seq<StreakPeriod>, showFreezes: bool): Option<DayCell>
    requires Dates.IsoYear(year) && 0 <= monthIndex < 12
    requires 0 <= i < LeadingBlanks(year, monthIndex, startOfWeek) + DaysInMonth(year, monthIndex)
  {
    var blanks := LeadingBlanks(year, monthIndex, startOfWeek);
    if i < blanks then None else Some(CellFor(year, monthIndex, i - blanks + 1, today, periods, showFreezes))
  }

  /** The whole grid (`days.map` over the day list `BuildGrid` describes):
      blanks, then one cell per day. */
  method BuildCalendar(year: int, monthIndex: int, startOfWeek: WeekStart, today: Dates.Date,
                       periods: seq<StreakPeriod>, showFreezes: bool) returns (cells: seq<Option<DayCell>>)
    requires Dates.IsoYear(year) && 0 <= monthIndex < 12
    ensures |cells| == LeadingBlanks(year, monthIndex, startOfWeek) + DaysInMonth(year, monthIndex)
    ensures forall i :: 0 <= i < |cells| ==> cells[i] == GridCell(year, monthIndex, startOfWeek, i, today, periods, showFreezes)
  {
    var blanks := LeadingBlanks(year, monthIndex, startOfWeek);
    var days := Layout(blanks, DaysInMonth(year, monthIndex));
    cells := MapDays(year, monthIndex, days, today, periods, showFreezes, blanks);
    forall i | 0 <= i < |cells|
      ensures cells[i] == GridCell(year, monthIndex, startOfWeek, i, today, periods, showFreezes)
    {
      GridCellOf(year, monthIndex, startOfWeek, i, today, periods, showFreezes, blanks);
    }
  }

  /** Maps each entry of a day list laid out after `blanks` blanks to its
      cell. */
  method MapDays(year: int, monthIndex: int, days: seq<Option<int>>, today: Dates.Date,
                 periods: seq<StreakPeriod>, showFreezes: bool, ghost blanks: nat) returns (cells: seq<Option<DayCell>>)
    requires Dates.IsoYear(year) && 0 <= monthIndex < 12
    requires |days| == blanks + DaysInMonth(year, monthIndex)
    requires forall i :: 0 <= i < blanks ==> days[i] == None
    requires forall i :: blanks <= i < |days| ==> days[i] == Some(i - blanks + 1)
    ensures |cells| == |days|
    ensures forall i :: 0 <= i < blanks ==> cells[i] == None
    ensures forall i :: blanks <= i < |cells| ==>
              cells[i] == Some(CellFor(year, monthIndex, i - blanks + 1, today, periods, showFreezes))
  {
    cells := [];
    var i := 0;
    while i < |days|
      invariant 0 <= i <= |days| && |cells| == i
      invariant forall j :: 0 <= j < i && j < blanks ==> cells[j] == None
      invariant forall j :: blanks <= j < i ==>
                  cells[j] == Some(CellFor(year, monthIndex, j - blanks + 1, today, periods, showFreezes))
    {
      match days[i] {
        case None =>
          cells := cells + [None];
        case Some(day) =>
          cells := cells + [Some(CellFor(year, monthIndex, day, today, periods, showFreezes))];
      }
      i := i + 1;
    }
  }

  lemma GridCellOf(year: int, monthIndex: int, startOfWeek: WeekStart, i: int, today: Dates.Date,
                   periods: seq<StreakPeriod>, showFreezes: bool, blanks: int)
    requires Dates.IsoYear(year) && 0 <= monthIndex < 12
    requires blanks == LeadingBlanks(year, monthIndex, startOfWeek)
    requires 0 <= i < blanks + DaysInMonth(year, monthIndex)
    ensures i < blanks ==> GridCell(year, monthIndex, startOfWeek, i, today, periods, showFreezes) == None
    ensures i >= blanks ==> GridCell(year, monthIndex, startOfWeek, i, today, periods, showFreezes)
                            == Some(CellFor(year, monthIndex, i - blanks + 1, today, periods, showFreezes))
  {
  }

  /** Every day of the month has its cell at position `blanks + day - 1`,
      and every position before the 1st is blank. */
  lemma CalendarPlacesEachDay(year: int, monthIndex: int, startOfWeek: WeekStart, today: Dates.Date,
                              periods: seq<StreakPeriod>, showFreezes: bool, day: int)
    requires Dates.IsoYear(year) && 0 <= monthIndex < 12 && 1 <= day <= DaysInMonth(year, monthIndex)
    ensures var i := LeadingBlanks(year, monthIndex, startOfWeek) + day - 1;
            GridCell(year, monthIndex, startOfWeek, i, today, periods, showFreezes)
            == Some(CellFor(year, monthIndex, day, today, periods, showFreezes))
    ensures forall i :: 0 <= i < LeadingBlanks(year, monthIndex, startOfWeek) ==>
              GridCell(year, monthIndex, startOfWeek, i, today, periods, showFreezes).None?
  {
  }
}

=== FILE: streak_labels.dfy ===
/** The streak badge: which length and unit it shows. */
module StreakBadge {
  import opened Prelude
  import opened Streaks

  /** `streak?.length ?? length ?? 0`. */
  function StreakLength(streak: Option<StreakResponse>, lengthProp: Option<int>): (n: int)
    ensures streak.Some? ==> n == streak.value.length
    ensures streak.None? && lengthProp.Some? ==> n == lengthProp.value
    ensures streak.None? && lengthProp.None? ==> n == 0
  {
    if streak.Some? then streak.value.length else lengthProp.GetOr(0)
  }

  /** `streak?.frequency ?? "daily"`. */
  function BadgeFrequency(streak: Option<StreakResponse>): (f: Frequency)
    ensures streak.None? ==> f == Daily
    ensures streak.Some? ==> f == streak.value.frequency
  {
    if streak.Some? then streak.value.frequency else Daily
  }

  function UnitLabel(f: Frequency): string {
    match f
    case Daily => "day"
    case Weekly => "week"
    case Monthly => "month"
  }

  /** The unit, singular only for a length of exactly one. */
  function PluralLabel(length: int, f: Frequency): (s: string)
    ensures length == 1 ==> s == UnitLabel(f)
    ensures length != 1 ==> s == UnitLabel(f) + "s"
  {
    if length == 1 then UnitLabel(f) else UnitLabel(f) + "s"
  }

  /** The three units are distinct, and so are all six labels: a label names
      its frequency and its number. */
  lemma LabelsDetermineUnitAndNumber(n1: int, f1: Frequency, n2: int, f2: Frequency)
    requires PluralLabel(n1, f1) == PluralLabel(n2, f2)
    ensures f1 == f2 && (n1 == 1 <==> n2 == 1)
  {
    var s1, s2 := PluralLabel(n1, f1), PluralLabel(n2, f2);
    assert s1[0] == s2[0] && |s1| == |s2|;
  }
}

/** The streak-freeze indicator: how many freezes it shows and how many are
    filled. */
module StreakFreezeIndicator {
  import opened Prelude
  import Text
  import opened Streaks

  /** `streak?.freezes ?? freezes ?? 0`. */
  function Freezes(streak: Option<StreakResponse>, freezesProp: Option<int>): (n: int)
    ensures streak.Some? && streak.value.freezes.Some? ==> n == streak.value.freezes.value
    ensures (streak.None? || streak.value.freezes.None?) && freezesProp.Some? ==> n == freezesProp.value
    ensures (streak.None? || streak.value.freezes.None?) && freezesProp.None? ==> n == 0
  {
    if streak.Some? && streak.value.freezes.Some? then streak.value.freezes.value
    else freezesProp.GetOr(0)
  }

  /** `streak?.maxFreezes ?? maxFreezes ?? freezes`: with no maximum given,
      the current count is the maximum. */
  function MaxFreezes(streak: Option<StreakResponse>, maxProp: Option<int>, freezes: int): (n: int)
    ensures streak.Some? && streak.value.maxFreezes.Some? ==> n == streak.value.maxFreezes.value
    ensures (streak.None? || streak.value.maxFreezes.None?) && maxProp.Some? ==> n == maxProp.value
    ensures (streak.None? || streak.value.maxFreezes.None?) && maxProp.None? ==> n == freezes
  {
    if streak.Some? && streak.value.maxFreezes.Some? then streak.value.maxFreezes.value
    else maxProp.GetOr(freezes)
  }

  /** The indicator row: one entry per possible freeze, filled for the ones
      available. */
  function Indicators(freezes: int, maxFreezes: int): (row: seq<bool>)
    ensures |row| == Max(0, maxFreezes)
    ensures forall i :: 0 <= i < |row| ==> (row[i] <==> i < freezes)
  {
    seq(Max(0, maxFreezes), i => i < freezes)
  }

  function CountFilled(row: seq<bool>): nat {
    if |row| == 0 then 0 else CountFilled(row[..|row| - 1]) + (if row[|row| - 1] then 1 else 0)
  }

  /** Exactly `min(freezes, maxFreezes)` indicators are filled (none when
      either is negative). */
  lemma {:induction false} FilledCount(freezes: int, maxFreezes: int)
    ensures CountFilled(Indicators(freezes, maxFreezes)) == Max(0, Min(freezes, Max(0, maxFreezes)))
    decreases Max(0, maxFreezes)
  {
    if maxFreezes > 0 {
      var row := Indicators(freezes, maxFreezes);
      assert row[..|row| - 1] == Indicators(freezes, maxFreezes - 1);
      FilledCount(freezes, maxFreezes - 1);
    }
  }

  /** The accessible label, "f of m streak freeze(s) available", singular
      exactly when the maximum is one. */
  function AriaLabel(freezes: int, maxFreezes: int): (s: string)
    ensures |s| > |SingularTail|
    ensures EndsWith(s, SingularTail) <==> maxFreezes == 1
  {
    var s := Counts(freezes, maxFreezes) + Unit(maxFreezes);
    LabelEnding(Counts(freezes, maxFreezes), maxFreezes, s);
    s
  }

  /** "f of m", the counts part of the label. */
  function Counts(freezes: int, maxFreezes: int): (s: string)
    ensures |s| > 0
  {
    Text.IntToString(freezes) + " of " + Text.IntToString(maxFreezes)
  }

  /** The unit and the closing word, singular exactly for a maximum of one. */
  function Unit(maxFreezes: int): string {
    if maxFreezes == 1 then SingularTail else PluralTail
  }

  /** Of the two units, only the singular one ends in the singular text. */
  lemma LabelEnding(head: string, maxFreezes: int, s: string)
    requires |head| > 0 && s == head + Unit(maxFreezes)
    ensures |s| > |SingularTail|
    ensures EndsWith(s, SingularTail) <==> maxFreezes == 1
  {
    var tail := Unit(maxFreezes);
    SuffixOfConcat(head, tail, |SingularTail|);
    if maxFreezes != 1 {
      assert tail[|tail| - |SingularTail|..][0] == 's' != SingularTail[0];
    }
  }

  const SingularTail: string := " streak freeze available"
  const PluralTail: string := " streak freezes available"

  /** Reads the two counts back from a label, accepting only the unit that
      agrees with the maximum. */
  function ParseAriaLabel(s: string): (r: Option<(nat, nat)>)
    ensures r.Some? ==> |s| > 0 && Text.IsDigit(s[0])
  {
    match Text.SplitNumber(s)
    case None => None
    case Some((f, rest)) => ParseAriaTail(f, rest)
  }

  /** What follows the freeze count: " of ", the maximum and its unit. */
  function ParseAriaTail(f: nat, rest: string): (r: Option<(nat, nat)>)
    ensures r.Some? ==> r.value.0 == f && |rest| > 4 && rest[..4] == " of "
  {
    if |rest| > 4 && rest[..4] == " of " then
      match Text.SplitNumber(rest[4..])
      case None => None
      case Some((m, tail)) => if tail == Unit(m) then Some((f, m)) else None
    else None
  }

  /** The label says exactly how many freezes are available out of how many:
      it reads back as the two counts. */
  lemma AriaLabelRoundTrip(freezes: nat, maxFreezes: nat)
    ensures ParseAriaLabel(AriaLabel(freezes, maxFreezes)) == Some((freezes, maxFreezes))
  {
    var rest := " of " + Text.NatToString(maxFreezes) + Unit(maxFreezes);
    AriaLabelParts(freezes, maxFreezes);
    assert rest[0] == ' ';
    Text.SplitNumberOfNumeral(freezes, rest);
    AriaTail(freezes, maxFreezes);
  }

  /** The label is the freeze count followed by everything after it. */
  lemma AriaLabelParts(freezes: nat, maxFreezes: nat)
    ensures AriaLabel(freezes, maxFreezes)
            == Text.NatToString(freezes) + (" of " + Text.NatToString(maxFreezes) + Unit(maxFreezes))
  {
    var n, o, k, u := Text.NatToString(freezes), " of ", Text.NatToString(maxFreezes), Unit(maxFreezes);
    assert Counts(freezes, maxFreezes) == n + o + k;
    assert AriaLabel(freezes, maxFreezes) == (n + o + k) + u;
    AppendAssoc(n, o, k);
    AppendAssoc(n, o + k, u);
  }

  lemma AriaTail(freezes: nat, maxFreezes: nat)
    ensures ParseAriaTail(freezes, " of " + Text.NatToString(maxFreezes) + Unit(maxFreezes)) == Some((freezes, maxFreezes))
  {
    var tail := Unit(maxFreezes);
    assert tail[0] == ' ';
    OfThenNumber(maxFreezes, tail);
  }

  /** " of ", a number and a unit starting with a space: the number splits
      off after the first four characters. */
  lemma OfThenNumber(m: nat, unit: string)
    requires |unit| > 0 && unit[0] == ' '
    ensures var rest := " of " + Text.NatToString(m) + unit;
            |rest| > 4 && rest[..4] == " of " && Text.SplitNumber(rest[4..]) == Some((m, unit))
  {
    var o, k := " of ", Text.NatToString(m);
    AppendAssoc(o, k, unit);
    var after := k + unit;
    assert (o + after)[..|o|] == o && (o + after)[|o|..] == after;
    Text.SplitNumberOfNumeral(m, unit);
  }

  /** What the widget renders: nothing when the maximum is 0, else the
      indicator row and its label. */
  datatype FreezeView = NothingShown | Indicated(row: seq<bool>, ariaLabel: string)

  function View(streak: Option<StreakResponse>, freezesProp: Option<int>, maxProp: Option<int>): (v: FreezeView)
    ensures v.NothingShown? <==> MaxFreezes(streak, maxProp, Freezes(streak, freezesProp)) == 0
    ensures v.Indicated? ==>
              var freezes := Freezes(streak, freezesProp);
              v.row == Indicators(freezes, MaxFreezes(streak, maxProp, freezes))
              && v.ariaLabel == AriaLabel(freezes, MaxFreezes(streak, maxProp, freezes))
  {
    var freezes := Freezes(streak, freezesProp);
    var maxFreezes := MaxFreezes(streak, maxProp, freezes);
    if maxFreezes == 0 then NothingShown
    else Indicated(Indicators(freezes, maxFreezes), AriaLabel(freezes, maxFreezes))
  }

  /** Given only a freeze count, the indicator shows that many, all filled;
      a count of 0 hides it. */
  lemma CountAloneFillsEverything(freezes: int)
    requires freezes >= 0
    ensures View(None, Some(freezes), None).NothingShown? <==> freezes == 0
    ensures freezes > 0 ==> View(None, Some(freezes), None).row == seq(freezes, i => true)
    ensures freezes > 0 ==> CountFilled(View(None, Some(freezes), None).row) == freezes
  {
    FilledCount(freezes, freezes);
  }
}

=== FILE: streak_risk.dfy ===
/** The streak-at-risk banner's derivations: time left until the streak's
    expiry date ends, whether to warn and how urgently, and the countdown
    text. "Now" is a parameter: local wall-clock milliseconds on the same
    scale as `Deadline`. */
module StreakAtRisk {
  import opened Prelude
  import Text
  import Dates
  import opened Streaks

  const MsPerMinute: int := 60000
  const MsPerHour: int := 3600000
  const MsPerDay: int := 86400000

  /** 23:59:59 local time on `d`, in milliseconds since the local epoch. */
  function Deadline(d: Dates.Date): int
    requires 1 <= d.month <= 12
  {
    Dates.DaysFromCivil(d.year, d.month, d.day) * MsPerDay + 86399000
  }

  /** The deadline is one second before the next day begins. */
  lemma DeadlineIsLastSecond(d: Dates.Date)
    requires 1 <= d.month <= 12
    ensures Deadline(d) + 1000 == Dates.DaysFromCivil(d.year, d.month, d.day + 1) * MsPerDay
  {
    Dates.NextDay(d.year, d.month, d.day);
  }

  /** `getTimeRemainingMs`: `null` for a missing or empty expiry; otherwise
      the time to the deadline, never negative. A string that is not a date
      yields an invalid `Date`, whose `NaN` difference is not positive, so 0. */
  function TimeRemainingMs(expires: Option<string>, now: int): (r: Option<int>)
    ensures r.None? <==> expires.None? || expires.value == ""
    ensures r.Some? ==> r.value >= 0
    ensures r.Some? && Dates.ParseIsoDate(expires.value).None? ==> r.value == 0
    ensures r.Some? && Dates.ParseIsoDate(expires.value).Some? ==>
              var deadline := Deadline(Dates.ParseIsoDate(expires.value).value);
              (now < deadline ==> now + r.value == deadline) && (now >= deadline ==> r.value == 0)
  {
    if expires.None? || expires.value == "" then None
    else
      match Dates.ParseIsoDate(expires.value)
      case None => Some(0)
      case Some(d) =>
        var remaining := Deadline(d) - now;
        Some(if remaining > 0 then remaining else 0)
  }

  /** For an expiry written as the ISO text of a date, the remaining time runs
      to the end of that date. */
  lemma RemainingForIsoExpiry(d: Dates.Date, now: int)
    requires Dates.IsoDatable(d)
    ensures TimeRemainingMs(Some(Dates.IsoDate(d)), now) == Some(Max(0, Deadline(d) - now))
  {
    Dates.ParseIsoDateOfIsoDate(d);
  }

  datatype Severity = Warning | Critical

  /** What the banner shows: nothing, or an alert of some severity. */
  datatype Alert = Hidden | Shown(severity: Severity)

  /** The render decision: hidden when dismissed, when there is no remaining
      time, or when more than `warningHours` remain; otherwise critical when
      at most `criticalHours` remain, else a warning. */
  function Assess(remaining: Option<int>, warningHours: real, criticalHours: real, dismissed: bool): (a: Alert)
    ensures a.Hidden? <==> dismissed || remaining.None? || remaining.value <= 0
                           || remaining.value as real > warningHours * MsPerHour as real
    ensures a.Shown? ==> (a.severity == Critical <==> remaining.value as real <= criticalHours * MsPerHour as real)
  {
    if dismissed then Hidden
    else if remaining.None? || remaining.value <= 0 then Hidden
    else
      var hoursRemaining := remaining.value as real / MsPerHour as real;
      if hoursRemaining > warningHours then Hidden
      else Shown(if hoursRemaining <= criticalHours then Critical else Warning)
  }

  /** The widget with its defaults: warn from 6 hours, critical from 2. */
  function Evaluate(streak: StreakResponse, now: int, warningHours: Option<real>,
                    criticalHours: Option<real>, dismissed: bool): Alert
  {
    Assess(TimeRemainingMs(streak.expires, now), warningHours.GetOr(6.0), criticalHours.GetOr(2.0), dismissed)
  }

  /** A streak without an expiry date is never at risk, whatever the time. */
  lemma NoExpiryNeverAtRisk(streak: StreakResponse, now: int, w: Option<real>, c: Option<real>, dismissed: bool)
    requires streak.expires.None?
    ensures Evaluate(streak, now, w, c, dismissed) == Hidden
  {
  }

  /** Once the expiry date has ended, nothing is shown. */
  lemma ExpiredIsHidden(streak: StreakResponse, d: Dates.Date, now: int, w: Option<real>, c: Option<real>, dismissed: bool)
    requires Dates.IsoDatable(d) && streak.expires == Some(Dates.IsoDate(d))
    requires now >= Deadline(d)
    ensures Evaluate(streak, now, w, c, dismissed) == Hidden
  {
    RemainingForIsoExpiry(d, now);
  }

  /** 0 for hidden, 1 for a warning, 2 for critical. */
  function Urgency(a: Alert): int {
    match a
    case Hidden => 0
    case Shown(Warning) => 1
    case Shown(Critical) => 2
  }

  /** As time passes towards the deadline the alert only escalates: hidden,
      then warning, then critical. */
  lemma RiskEscalates(expires: string, now1: int, now2: int, w: real, c: real)
    requires expires != "" && Dates.ParseIsoDate(expires).Some?
    requires now1 <= now2 < Deadline(Dates.ParseIsoDate(expires).value)
    ensures Urgency(Assess(TimeRemainingMs(Some(expires), now1), w, c, false))
            <= Urgency(Assess(TimeRemainingMs(Some(expires), now2), w, c, false))
  {
    var r1 := TimeRemainingMs(Some(expires), now1).value;
    var r2 := TimeRemainingMs(Some(expires), now2).value;
    assert r1 >= r2 > 0;
    assert r1 as real >= r2 as real;
  }

  /** The three shapes of `formatTimeRemaining`'s output. */
  datatype Countdown = DaysHours(days: int, hours: int) | HoursMinutes(hours: int, minutes: int) | MinutesOnly(minutes: int)

  /** JavaScript's `%`: the remainder takes the sign of the dividend. */
  function JsRemainder(a: int, b: int): (r: int)
    requires b > 0
    ensures a >= 0 ==> r == a % b
    ensures -b < r < b
  {
    if a >= 0 then a % b else -((-a) % b)
  }

  /** Whole hours and minutes of a duration, split into days once it exceeds
      24 hours. For a non-negative duration the parts describe it to the
      minute (to the hour in the day form). */
  function CountdownOf(ms: int): (c: Countdown)
    ensures ms >= 0 ==> (c.DaysHours? <==> ms >= 25 * MsPerHour)
    ensures ms >= 0 ==> (c.MinutesOnly? <==> ms < MsPerHour)
    ensures ms >= 0 && c.DaysHours? ==>
              c.days >= 1 && 0 <= c.hours < 24
              && (24 * c.days + c.hours) * MsPerHour <= ms < (24 * c.days + c.hours + 1) * MsPerHour
    ensures ms >= 0 && c.HoursMinutes? ==>
              1 <= c.hours <= 24 && 0 <= c.minutes < 60
              && c.hours * MsPerHour + c.minutes * MsPerMinute <= ms
              && ms < c.hours * MsPerHour + (c.minutes + 1) * MsPerMinute
    ensures ms >= 0 && c.MinutesOnly? ==>
              0 <= c.minutes < 60 && c.minutes * MsPerMinute <= ms < (c.minutes + 1) * MsPerMinute
  {
    var hours := ms / MsPerHour;
    var minutes := JsRemainder(ms, MsPerHour) / MsPerMinute;
    if hours > 24 then DaysHours(hours / 24, hours % 24)
    else if hours > 0 then HoursMinutes(hours, minutes)
    else MinutesOnly(minutes)
  }

  function CountdownText(c: Countdown): string {
    match c
    case DaysHours(d, h) => Text.IntToString(d) + "d " + Text.IntToString(h) + "h"
    case HoursMinutes(h, m) => Text.IntToString(h) + "h " + Text.IntToString(m) + "m"
    case MinutesOnly(m) => Text.IntToString(m) + "m"
  }

  /** `formatTimeRemaining`. */
  function FormatTimeRemaining(ms: int): string {
    CountdownText(CountdownOf(ms))
  }

  /** Reads a countdown back from its text: a number and `m`; or a number,
      `d ` or `h `, a second number and `h` or `m` respectively. */
  function ParseCountdown(s: string): (r: Option<Countdown>)
    ensures r.Some? ==> |s| > 0 && Text.IsDigit(s[0])
  {
    match Text.SplitNumber(s)
    case None => None
    case Some((a, rest)) => ParseUnits(a, rest)
  }

  /** What follows the leading number `a` of a countdown text. */
  function ParseUnits(a: nat, rest: string): (r: Option<Countdown>)
    ensures r.Some? && r.value.MinutesOnly? ==> rest == "m"
  {
    if rest == "m" then Some(MinutesOnly(a))
    else if |rest| >= 2 && rest[1] == ' ' && (rest[0] == 'd' || rest[0] == 'h') then
      match Text.SplitNumber(rest[2..])
      case None => None
      case Some((b, tail)) =>
        if rest[0] == 'd' && tail == "h" then Some(DaysHours(a, b))
        else if rest[0] == 'h' && tail == "m" then Some(HoursMinutes(a, b))
        else None
    else None
  }

  /** The countdown text says exactly the units `CountdownOf` computed: it
      reads back to the same days and hours, hours and minutes, or minutes. */
  lemma CountdownTextRoundTrip(ms: int)
    requires ms >= 0
    ensures ParseCountdown(FormatTimeRemaining(ms)) == Some(CountdownOf(ms))
  {
    match CountdownOf(ms)
    case DaysHours(d, h) =>
      DaysHoursText(d, h);
    case HoursMinutes(h, m) =>
      HoursMinutesText(h, m);
    case MinutesOnly(m) =>
      Text.SplitNumberOfNumeral(m, "m");
  }

  /** A number, a unit letter and a space, then a second number and its unit
      letter, reads back as the two numbers. */
  lemma TwoPartText(a: nat, b: nat, u1: char, u2: char)
    requires (u1 == 'd' && u2 == 'h') || (u1 == 'h' && u2 == 'm')
    ensures ParseCountdown(Text.NatToString(a) + [u1, ' '] + Text.NatToString(b) + [u2])
            == Some(if u1 == 'd' then DaysHours(a, b) else HoursMinutes(a, b))
  {
    var rest := [u1, ' '] + Text.NatToString(b) + [u2];
    assert Text.NatToString(a) + [u1, ' '] + Text.NatToString(b) + [u2] == Text.NatToString(a) + rest;
    Text.SplitNumberOfNumeral(a, rest);
    SecondPart(a, b, u1, u2);
  }

  lemma SecondPart(a: nat, b: nat, u1: char, u2: char)
    requires (u1 == 'd' && u2 == 'h') || (u1 == 'h' && u2 == 'm')
    ensures ParseUnits(a, [u1, ' '] + Text.NatToString(b) + [u2])
            == Some(if u1 == 'd' then DaysHours(a, b) else HoursMinutes(a, b))
  {
    var rest := [u1, ' '] + Text.NatToString(b) + [u2];
    assert rest[0] == u1 && rest[1] == ' ' && |rest| >= 3;
    assert rest[2..] == Text.NatToString(b) + [u2];
    Text.SplitNumberOfNumeral(b, [u2]);
    assert Text.SplitNumber(rest[2..]) == Some((b, [u2]));
  }

  lemma DaysHoursText(d: nat, h: nat)
    ensures ParseCountdown(CountdownText(DaysHours(d, h))) == Some(DaysHours(d, h))
  {
    assert CountdownText(DaysHours(d, h)) == Text.NatToString(d) + ['d', ' '] + Text.NatToString(h) + ['h'];
    TwoPartText(d, h, 'd', 'h');
  }

  lemma HoursMinutesText(h: nat, m: nat)
    ensures ParseCountdown(CountdownText(HoursMinutes(h, m))) == Some(HoursMinutes(h, m))
  {
    assert CountdownText(HoursMinutes(h, m)) == Text.NatToString(h) + ['h', ' '] + Text.NatToString(m) + ['m'];
    TwoPartText(h, m, 'h', 'm');
  }

  /** Exactly 24 hours is still written in hours and minutes. */
  lemma TwentyFourHoursBoundary()
    ensures CountdownOf(24 * MsPerHour) == HoursMinutes(24, 0)
    ensures CountdownOf(24 * MsPerHour + 59 * MsPerMinute) == HoursMinutes(24, 59)
    ensures CountdownOf(25 * MsPerHour) == DaysHours(1, 1)
  {
  }

  /** Worked values: 90 minutes, 30 hours, 45 minutes and nothing at all. */
  lemma FormatExamples()
    ensures FormatTimeRemaining(90 * MsPerMinute) == "1h 30m"
    ensures FormatTimeRemaining(30 * MsPerHour) == "1d 6h"
    ensures FormatTimeRemaining(45 * MsPerMinute) == "45m"
    ensures FormatTimeRemaining(0) == "0m"
  {
    assert CountdownOf(90 * MsPerMinute) == HoursMinutes(1, 30);
    assert Text.NatToString(30) == "30";
    assert CountdownOf(30 * MsPerHour) == DaysHours(1, 6);
    assert CountdownOf(45 * MsPerMinute) == MinutesOnly(45);
    assert Text.NatToString(45) == "45";
  }
}

=== FILE: streaks.dfy ===
/** The streak record the widgets receive from the API. Each widget file
    declares the fields it uses; this is their union. */
module Streaks {
  import opened Prelude

  datatype Frequency = Daily | Weekly | Monthly

  /** One past or current streak period. Bounds are the API's `YYYY-MM-DD`
      strings; an absent `usedFreeze` is `false`. */
  datatype StreakPeriod = StreakPeriod(periodStart: string, periodEnd: string, length: int, usedFreeze: bool)

  /** `expires` is a calendar date string or `null`; `freezes` and
      `maxFreezes` are optional in the API. */
  datatype StreakResponse = StreakResponse(
    length: int,
    frequency: Frequency,
    expires: Option<string>,
    streakHistory: seq<StreakPeriod>,
    freezes: Option<int>,
    maxFreezes: Option<int>)
}

=== FILE: text.dfy ===
/** Decimal rendering of integers (the source's template-literal `${n}`),
    fixed-width zero-padded digits (as in an ISO date), their parser, and a
    lexicographic order on code points standing for JavaScript's `<`/`>=` on
    strings (the two agree on text inside the Basic Multilingual Plane). */
module Text {
  import opened Prelude

  predicate IsDigit(c: char) { '0' <= c <= '9' }

  predicate AllDigits(s: string) {
    forall i :: 0 <= i < |s| ==> IsDigit(s[i])
  }

  function DigitChar(n: int): (c: char)
    requires 0 <= n < 10
    ensures IsDigit(c)
  {
    ('0' as int + n) as char
  }

  function DigitValue(c: char): (n: int)
    requires IsDigit(c)
    ensures 0 <= n < 10
  {
    c as int - '0' as int
  }

  /** The decimal numeral of a natural number, without leading zeros. */
  function NatToString(n: nat): (s: string)
    ensures |s| >= 1 && AllDigits(s)
    ensures n < 10 <==> |s| == 1
    decreases n
  {
    if n < 10 then [DigitChar(n)] else NatToString(n / 10) + [DigitChar(n % 10)]
  }

  /** `${n}` for an integer: a minus sign, then the digits of its magnitude. */
  function IntToString(n: int): (s: string)
    ensures |s| >= 1
    ensures n < 0 <==> s[0] == '-'
    ensures n >= 0 ==> s == NatToString(n)
    ensures n < 0 ==> s[1..] == NatToString(-n)
  {
    if n < 0 then "-" + NatToString(-n) else NatToString(n)
  }

  /** The value of a string of decimal digits (the empty string reads as 0). */
  function ParseDigits(s: string): nat
    requires AllDigits(s)
  {
    if |s| == 0 then 0 else 10 * ParseDigits(s[..|s| - 1]) + DigitValue(s[|s| - 1])
  }

  lemma DigitRoundTrip(n: int)
    requires 0 <= n < 10
    ensures DigitValue(DigitChar(n)) == n
  {
  }

  /** Reading back a rendered natural number gives the number. */
  lemma {:induction false} ParseNatToString(n: nat)
    ensures ParseDigits(NatToString(n)) == n
    decreases n
  {
    var s := NatToString(n);
    if n < 10 {
      DigitRoundTrip(n);
    } else {
      ParseNatToString(n / 10);
      assert s[..|s| - 1] == NatToString(n / 10);
      DigitRoundTrip(n % 10);
    }
  }

  function Pow10(w: nat): (p: nat)
    ensures p >= 1
  {
    if w == 0 then 1 else 10 * Pow10(w - 1)
  }

  /** `n` written with exactly `w` digits, zero-padded on the left. */
  function Fixed(n: nat, w: nat): (s: string)
    requires n < Pow10(w)
    ensures |s| == w && AllDigits(s)
    decreases w
  {
    if w == 0 then [] else Fixed(n / 10, w - 1) + [DigitChar(n % 10)]
  }

  /** Reading back a zero-padded field gives the number. */
  lemma {:induction false} ParseFixed(n: nat, w: nat)
    requires n < Pow10(w)
    ensures ParseDigits(Fixed(n, w)) == n
    decreases w
  {
    if w > 0 {
      var s := Fixed(n, w);
      ParseFixed(n / 10, w - 1);
      assert s[..|s| - 1] == Fixed(n / 10, w - 1);
      DigitRoundTrip(n % 10);
    }
  }

  /** Every digit string of width `w` is the padded rendering of its value. */
  lemma {:induction false} FixedOfParse(s: string)
    requires AllDigits(s)
    ensures ParseDigits(s) < Pow10(|s|)
    ensures Fixed(ParseDigits(s), |s|) == s
    decreases |s|
  {
    if |s| > 0 {
      var init := s[..|s| - 1];
      assert AllDigits(init);
      FixedOfParse(init);
      var n := ParseDigits(s);
      var d := DigitValue(s[|s| - 1]);
      assert n / 10 == ParseDigits(init) && n % 10 == d;
      assert DigitChar(d) == s[|s| - 1];
      assert s == init + [s[|s| - 1]];
    }
  }

  /** Three-way comparison of strings by code point, standing for
      JavaScript's relational operators: a proper prefix comes first. */
  function Compare(a: string, b: string): (c: int)
    ensures -1 <= c <= 1
    decreases |a|
  {
    if |a| == 0 && |b| == 0 then 0
    else if |a| == 0 then -1
    else if |b| == 0 then 1
    else if a[0] < b[0] then -1
    else if a[0] > b[0] then 1
    else Compare(a[1..], b[1..])
  }

  /** `a <= b` on strings. */
  predicate Le(a: string, b: string) {
    Compare(a, b) <= 0
  }

  /** The comparison is zero exactly on equal strings. */
  lemma {:induction false} CompareZero(a: string, b: string)
    ensures Compare(a, b) == 0 <==> a == b
    decreases |a|
  {
    if |a| > 0 && |b| > 0 && a[0] == b[0] {
      CompareZero(a[1..], b[1..]);
      if a[1..] == b[1..] {
        assert a == [a[0]] + a[1..] && b == [b[0]] + b[1..];
      }
    }
  }

  /** Swapping the operands negates the comparison. */
  lemma {:induction false} CompareFlip(a: string, b: string)
    ensures Compare(a, b) == -Compare(b, a)
    decreases |a|
  {
    if |a| > 0 && |b| > 0 && a[0] == b[0] {
      CompareFlip(a[1..], b[1..]);
    }
  }

  /** `<=` on strings is transitive. */
  lemma {:induction false} LeTransitive(a: string, b: string, c: string)
    requires Le(a, b) && Le(b, c)
    ensures Le(a, c)
    decreases |a|
  {
    if |a| > 0 && |b| > 0 && |c| > 0 && a[0] == b[0] == c[0] {
      LeTransitive(a[1..], b[1..], c[1..]);
    }
  }

  /** Comparing two concatenations whose heads have equal length decides on
      the heads first and on the tails only when the heads are equal. */
  lemma {:induction false} CompareConcat(a1: string, b1: string, a2: string, b2: string)
    requires |a1| == |a2|
    ensures Compare(a1 + b1, a2 + b2) == if a1 == a2 then Compare(b1, b2) else Compare(a1, a2)
    decreases |a1|
  {
    if |a1| > 0 {
      assert (a1 + b1)[1..] == a1[1..] + b1;
      assert (a2 + b2)[1..] == a2[1..] + b2;
      CompareConcat(a1[1..], b1, a2[1..], b2);
      if a1[0] == a2[0] && a1[1..] == a2[1..] {
        assert a1 == [a1[0]] + a1[1..] && a2 == [a2[0]] + a2[1..];
      }
    } else {
      assert a1 + b1 == b1 && a2 + b2 == b2;
    }
  }

  function Sign(n: int): int {
    if n < 0 then -1 else if n == 0 then 0 else 1
  }

  /** Zero-padded fields of one width compare as their numbers do. */
  lemma {:induction false} CompareFixed(a: nat, b: nat, w: nat)
    requires a < Pow10(w) && b < Pow10(w)
    ensures Compare(Fixed(a, w), Fixed(b, w)) == Sign(a - b)
    decreases w
  {
    if w > 0 {
      DropDigit(a, w);
      DropDigit(b, w);
      var ha, hb := Fixed(a / 10, w - 1), Fixed(b / 10, w - 1);
      CompareFixed(a / 10, b / 10, w - 1);
      CompareZero(ha, hb);
      CompareConcat(ha, [DigitChar(a % 10)], hb, [DigitChar(b % 10)]);
      CompareDigit(a % 10, b % 10);
      SignOfDigits(a, b);
    }
  }

  /** Dropping the last digit of a `w`-digit number leaves `w - 1` digits. */
  lemma DropDigit(n: nat, w: nat)
    requires 0 < w && n < Pow10(w)
    ensures n / 10 < Pow10(w - 1)
    ensures Fixed(n, w) == Fixed(n / 10, w - 1) + [DigitChar(n % 10)]
  {
  }

  /** The length of the run of digits that starts the string. */
  function DigitRun(s: string): (k: nat)
    ensures k <= |s|
    ensures AllDigits(s[..k])
    ensures k < |s| ==> !IsDigit(s[k])
  {
    if |s| == 0 || !IsDigit(s[0]) then 0
    else
      var k := 1 + DigitRun(s[1..]);
      assert s[..k] == [s[0]] + s[1..][..k - 1];
      k
  }

  /** A leading decimal numeral and the text after it, if the string starts
      with a digit. */
  function SplitNumber(s: string): (r: Option<(nat, string)>)
    ensures r.Some? <==> |s| > 0 && IsDigit(s[0])
    ensures r.Some? ==> exists k :: 0 < k <= |s| && AllDigits(s[..k])
                          && r.value == (ParseDigits(s[..k]), s[k..])
  {
    var k := DigitRun(s);
    if k == 0 then None else Some((ParseDigits(s[..k]), s[k..]))
  }

  /** A digit run followed by a non-digit stops exactly where the digits do. */
  lemma {:induction false} DigitRunOfConcat(a: string, t: string)
    requires AllDigits(a)
    requires |t| == 0 || !IsDigit(t[0])
    ensures DigitRun(a + t) == |a|
    decreases |a|
  {
    if |a| > 0 {
      assert (a + t)[1..] == a[1..] + t;
      DigitRunOfConcat(a[1..], t);
    } else {
      assert a + t == t;
    }
  }

  /** Splitting a rendered natural number off the text that follows it gives
      back the number and that text. */
  lemma SplitNumberOfNumeral(n: nat, t: string)
    requires |t| == 0 || !IsDigit(t[0])
    ensures SplitNumber(NatToString(n) + t) == Some((n, t))
  {
    var a := NatToString(n);
    DigitRunOfConcat(a, t);
    assert (a + t)[..|a|] == a;
    assert (a + t)[|a|..] == t;
    ParseNatToString(n);
  }

  /** Single digits compare as their values. */
  lemma CompareDigit(x: int, y: int)
    requires 0 <= x < 10 && 0 <= y < 10
    ensures Compare([DigitChar(x)], [DigitChar(y)]) == Sign(x - y)
  {
    assert [DigitChar(x)][1..] == [] && [DigitChar(y)][1..] == [];
  }

  /** Numbers compare on their leading digits first, then on the last. */
  lemma SignOfDigits(a: nat, b: nat)
    ensures Sign(a - b) == if a / 10 != b / 10 then Sign(a / 10 - b / 10) else Sign(a % 10 - b % 10)
  {
    assert a == 10 * (a / 10) + a % 10;
    assert b == 10 * (b / 10) + b % 10;
  }
}

=== FILE: user_rank.dfy ===
/** The user-rank card: rank badge, trend label, percentile and the
    "Top N%" line. */
module UserRank {
  import opened Prelude
  import Text
  import opened Rankings

  datatype Trend = Up | Down | Same | New

  /** The trend the card shows: `same` unless the caller says otherwise. */
  function TrendOrDefault(trend: Option<Trend>): (t: Trend)
    ensures trend.None? ==> t == Same
    ensures trend.Some? ==> t == trend.value
  {
    trend.GetOr(Same)
  }

  function Abs(n: int): nat { if n < 0 then -n else n }

  /** `getTrendDisplay`'s label. A zero or missing change shows an arrow;
      otherwise up shows `+change` and down shows `-|change|`. */
  function TrendLabel(trend: Trend, change: Option<int>): (s: string)
    ensures trend == New ==> s == "NEW"
    ensures trend == Same ==> s == "—"
    ensures trend == Up && !Truthy(change) ==> s == "↑"
    ensures trend == Down && !Truthy(change) ==> s == "↓"
    ensures trend == Up && Truthy(change) ==> s == "+" + Text.IntToString(change.value)
    ensures trend == Down && Truthy(change) ==> s == "-" + Text.NatToString(Abs(change.value))
  {
    match trend
    case Up => if Truthy(change) then "+" + Text.IntToString(change.value) else "↑"
    case Down => if Truthy(change) then "-" + Text.NatToString(Abs(change.value)) else "↓"
    case New => "NEW"
    case Same => "—"
  }

  /** A drop of `n` places reads `-n` whichever sign the caller gave it. */
  lemma DownIgnoresSign(n: int)
    requires n != 0
    ensures TrendLabel(Down, Some(n)) == TrendLabel(Down, Some(-n))
  {
  }

  /** An up trend with a negative change is written with both signs. */
  lemma UpKeepsNegativeSign()
    ensures TrendLabel(Up, Some(-3)) == "+-3"
  {
    assert Text.NatToString(3) == "3";
  }

  /** `Math.round(((total - rank + 1) / total) * 100)`, or nothing without a
      positive participant count. Rounding is half up, on exact values. */
  function Percentile(totalParticipants: Option<int>, rank: int): (p: Option<int>)
    ensures p.Some? <==> totalParticipants.Some? && totalParticipants.value > 0
    ensures p.Some? ==>
              var t := totalParticipants.value;
              2 * p.value * t - t <= 200 * (t - rank + 1) < 2 * p.value * t + t
  {
    if totalParticipants.Some? && totalParticipants.value > 0 then
      var t := totalParticipants.value;
      Some((200 * (t - rank + 1) + t) / (2 * t))
    else None
  }

  /** For a rank within the field the percentile lies in 0..100, and first
      place gets 100. */
  lemma PercentileBounds(total: int, rank: int)
    requires 1 <= rank <= total
    ensures 0 <= Percentile(Some(total), rank).value <= 100
    ensures rank == 1 ==> Percentile(Some(total), rank).value == 100
  {
    var p, t := Percentile(Some(total), rank).value, total;
    assert (2 * p - 201) * t == 2 * p * t - 201 * t;
    NonPositiveFactor(2 * p - 201, t);
    assert (-2 * p - 1) * t == -(2 * p * t + t);
    NegativeFactor(-2 * p - 1, t);
    if rank == 1 {
      assert (199 - 2 * p) * t == 199 * t - 2 * p * t;
      NegativeFactor(199 - 2 * p, t);
    }
  }

  lemma NonPositiveFactor(x: int, t: int)
    requires x * t <= 0 && t > 0
    ensures x <= 0
  {
  }

  lemma NegativeFactor(x: int, t: int)
    requires x * t < 0 && t > 0
    ensures x < 0
  {
  }

  /** A better rank never has a smaller percentile. */
  lemma PercentileMonotone(total: int, r1: int, r2: int)
    requires total > 0 && r1 <= r2
    ensures Percentile(Some(total), r1).value >= Percentile(Some(total), r2).value
  {
    var t := total;
    var n1, n2 := 200 * (t - r1 + 1) + t, 200 * (t - r2 + 1) + t;
    assert n2 <= n1;
    DivMonotone(n2, n1, 2 * t);
  }

  lemma DivMonotone(a: int, b: int, d: int)
    requires a <= b && d > 0
    ensures a / d <= b / d
  {
    var qa, qb := a / d, b / d;
    assert d * qa + a % d == a && d * qb + b % d == b;
    assert (qa - qb - 1) * d == d * qa - d * qb - d;
    NegativeFactor(qa - qb - 1, d);
  }

  /** The text as written: `100 - percentile + 1`. */
  function TopShareAsWritten(percentile: int): (n: int)
    ensures n + percentile == 101
  {
    100 - percentile + 1
  }

  /** The smallest whole percentage `n` with rank within the top `n` percent
      of the field: `ceil(100 * rank / total)`. */
  function TopShare(rank: int, total: int): (n: int)
    requires total > 0
    ensures 100 * rank <= n * total < 100 * rank + total
  {
    (100 * rank + total - 1) / total
  }

  /** First place of a hundred is the top 1 percent and last place of any
      field is the top 100 percent. */
  lemma TopShareEnds(total: int)
    requires total > 0
    ensures TopShare(total, total) == 100
    ensures total == 100 ==> TopShare(1, total) == 1
  {
    var n := TopShare(total, total);
    assert (n - 101) * total == n * total - 101 * total;
    NegativeFactor(n - 101, total);
    assert (100 - n) * total == 100 * total - n * total;
    NonPositiveFactor(100 - n, total);
  }

  /** The text as written is off for small fields: last of two reads
      "Top 51%" and first of two reads "Top 1%", where the intended shares
      are 100 and 50. */
  lemma TopShareAsWrittenIsOff()
    ensures TopShareAsWritten(Percentile(Some(2), 2).value) == 51 && TopShare(2, 2) == 100
    ensures TopShareAsWritten(Percentile(Some(2), 1).value) == 1 && TopShare(1, 2) == 50
  {
  }

  /** The two agree on a field of exactly one hundred. */
  lemma AsWrittenExactAtHundred(rank: int)
    requires 1 <= rank <= 100
    ensures TopShareAsWritten(Percentile(Some(100), rank).value) == TopShare(rank, 100)
  {
  }

  /** What the card shows on its right. `strayZero` is the bare "0" React
      prints when the participant count is the number 0: both
      `(showPercentile || totalParticipants) && …` and
      `{totalParticipants && …}` then evaluate to 0 rather than to false. */
  datatype Summary = Summary(topLine: Option<string>, totalLine: bool, strayZero: bool)

  /** "Top N%" when the percentile is asked for and defined, with the share
      as the card writes it, `100 - percentile + 1`; "of total" whenever the
      participant count is truthy. */
  function RightColumn(showPercentile: bool, totalParticipants: Option<int>, rank: int): (s: Summary)
    ensures s.topLine.Some? <==> showPercentile && totalParticipants.Some? && totalParticipants.value > 0
    ensures s.topLine.Some? ==>
              s.topLine.value == "Top " + Text.IntToString(TopShareAsWritten(Percentile(totalParticipants, rank).value)) + "%"
    ensures s.totalLine <==> Truthy(totalParticipants)
    ensures s.strayZero <==> totalParticipants == Some(0)
  {
    var p := Percentile(totalParticipants, rank);
    var top := if showPercentile && p.Some? then Some("Top " + Text.IntToString(TopShareAsWritten(p.value)) + "%") else None;
    Summary(top, Truthy(totalParticipants), totalParticipants == Some(0))
  }

  /** The right column with the intended share, the smallest percentage of
      the field that contains the rank. */
  function RightColumnIntended(showPercentile: bool, totalParticipants: Option<int>, rank: int): (s: Summary)
    ensures s.topLine.Some? <==> showPercentile && totalParticipants.Some? && totalParticipants.value > 0
    ensures s.topLine.Some? ==> s.topLine.value == "Top " + Text.IntToString(TopShare(rank, totalParticipants.value)) + "%"
    ensures s.totalLine == RightColumn(showPercentile, totalParticipants, rank).totalLine
    ensures !s.strayZero
  {
    var top := if showPercentile && Percentile(totalParticipants, rank).Some?
               then Some("Top " + Text.IntToString(TopShare(rank, totalParticipants.value)) + "%")
               else None;
    Summary(top, Truthy(totalParticipants), false)
  }

  /** With a participant count of 0 the column shows no line at all but a
      stray "0", whether or not the percentile is asked for; the intended
      column shows nothing. */
  lemma ZeroParticipantsShowsStrayZero(showPercentile: bool, rank: int)
    ensures RightColumn(showPercentile, Some(0), rank) == Summary(None, false, true)
    ensures RightColumnIntended(showPercentile, Some(0), rank) == Summary(None, false, false)
  {
  }

  /** Last of two participants reads "Top 51%" on the card, where the
      intended text is "Top 100%". */
  lemma RightColumnAsWrittenIsOff()
    ensures RightColumn(true, Some(2), 2).topLine == Some("Top 51%")
    ensures RightColumnIntended(true, Some(2), 2).topLine == Some("Top 100%")
  {
    TopShareAsWrittenIsOff();
    assert Text.NatToString(5) == "5";
    assert Text.NatToString(51) == Text.NatToString(5) + [Text.DigitChar(1)];
    assert Text.IntToString(51) == "51";
    assert Text.NatToString(1) == "1";
    assert Text.NatToString(10) == Text.NatToString(1) + [Text.DigitChar(0)];
    assert Text.NatToString(100) == Text.NatToString(10) + [Text.DigitChar(0)];
    assert Text.IntToString(100) == "100";
    assert Percentile(Some(2), 2) == Some(50);
    assert RightColumn(true, Some(2), 2).topLine == Some("Top " + Text.IntToString(51) + "%");
    assert RightColumnIntended(true, Some(2), 2).topLine == Some("Top " + Text.IntToString(100) + "%");
    assert "Top " + "51" + "%" == "Top 51%";
    assert "Top " + "100" + "%" == "Top 100%";
  }

  /** On a field of exactly one hundred the card's text is the intended one. */
  lemma RightColumnExactAtHundred(showPercentile: bool, rank: int)
    requires 1 <= rank <= 100
    ensures RightColumn(showPercentile, Some(100), rank) == RightColumnIntended(showPercentile, Some(100), rank)
  {
    AsWrittenExactAtHundred(rank);
  }

  /** The card's badge and name: the shared rank medal and display name. */
  datatype Card = Card(badge: Option<Medal>, name: string, trendLabel: string)

  function CardFor(r: Ranking, trend: Option<Trend>, rankChange: Option<int>): (c: Card)
    ensures c.badge == RankMedal(r.rank)
    ensures c.badge.Some? <==> 1 <= r.rank <= 3
    ensures c.name == DisplayName(r)
    ensures c.trendLabel == TrendLabel(TrendOrDefault(trend), rankChange)
    ensures trend.None? ==> c.trendLabel == "—"
  {
    Card(RankMedal(r.rank), DisplayName(r), TrendLabel(TrendOrDefault(trend), rankChange))
  }

  /** The card of a rising first place with a change of two shows the crown
      and "+2". */
  lemma RisingLeaderCard(r: Ranking)
    requires r.rank == 1
    ensures CardFor(r, Some(Up), Some(2)).badge == Some(Crown)
    ensures CardFor(r, Some(Up), Some(2)).trendLabel == "+2"
  {
    assert Text.NatToString(2) == "2";
  }
}
